=== FILE: README.md ===
# cep cron-field engine in Dafny

A functional model of the part of `cep` that turns a six-field cron line
(`minute hour day-of-month month day-of-week command`) into concrete integer
lists:

- the **expression holder** (`expressions/default.go`) splits the line on
  single spaces, requires six tokens, replaces month and day names by numbers
  and checks each comma-separated element of a field against one element
  pattern;
- the **default parser** (`parsers/default.go`) expands each temporal field:
  a `*` element gives the whole allowed range, a `base/step` element an
  arithmetic progression, an `a-b` element an interval and anything else a
  single integer; each field accessor then caches the sorted, duplicate-free
  values and checks them against the field's range;
- the **helpers** (`utils/util.go`): integer ranges, name substitution,
  duplicate removal and sorting;
- the **validator** (`validators/default.go`), which only counts and splits
  the fields.

Go's `(value, error)` pairs become `Result`/`Outcome` values (`outcomes.dfy`);
the Go objects that cache results become immutable state values that every
operation returns next to its answer. `text.dfy` stands in for the parts of
Go's `strings` and `strconv` packages the engine uses.

| file | contents |
|---|---|
| outcomes.dfy | `Option`, `Result`, `Outcome`, the error kinds |
| text.dfy | `Split`, `Join`, `Atoi`, `ToUpper`, `ReplaceAll` and their laws |
| fields.dfy | the six fields of a line, the field-count check |
| utils.dfy | `RangeValues`, `StringToNumber`, `RemoveDups`, `SortedUniqueInts` |
| expressions.dfy | the expression holder, the element pattern, the name tables |
| parsers.dfy | `parse`, `manageIntervals`, `manageSteps`, `inAllowedValues`, the accessors |
| validators.dfy | the field-count validator |

## Model

| member | source | states |
|---|---|---|
| Text.Atoi | parsers/default.go:128-131 | a text reads as an integer exactly when it is an optional sign followed by at least one digit; a plain numeral reads as its decimal value |
| Text.AtoiFormatInt | parsers/default.go:141-148 | every integer's decimal text reads back as that integer |
| Text.Split | expressions/default.go:130 | splitting always yields at least one piece and no piece holds the separator |
| Text.SplitJoinsBack | expressions/default.go:130 | joining the pieces with the separator gives the text back |
| Text.SplitCount | expressions/default.go:102-103 | there is exactly one piece more than there are separators in the text |
| Text.SplitJoin | validators/default.go:71 | splitting separator-free pieces joined by the separator returns those pieces |
| Text.SplitConcat | parsers/default.go:94 | splitting two texts joined at a separator gives the pieces of the first followed by those of the second |
| Text.ToUpper | utils/util.go:20 | upper-casing keeps the length and maps every character through the ASCII upper-case map |
| Text.ToUpperConcat | utils/util.go:20 | upper-casing a concatenation upper-cases each part |
| Text.ReplaceAll | utils/util.go:22 | a text in which the key does not occur is returned unchanged |
| Text.ReplaceAllWhole | utils/util.go:22 | the key on its own is replaced by the value |
| Text.ReplaceAllOther | utils/util.go:22 | a different text of the key's length is left alone |
| Text.ReplaceAllAround | utils/util.go:22 | a character the key lacks splits the replacement: each side is rewritten on its own |
| Fields.CheckFieldCount | expressions/default.go:101-107 | the count check passes exactly when the line holds five spaces, i.e. splits into six tokens; a failure reports the token count found and the six expected |
| Fields.FromTokens | expressions/default.go:144-150 | the six fields are tokens 0 to 5, in order |
| Utils.RangeValues | utils/util.go:8-15 | the range from a to b has b-a+1 values when a <= b and none otherwise, and its i-th value is a+i |
| Utils.RangeValuesMembers | utils/util.go:8-15 | a value is in the range exactly when it lies between the bounds |
| Utils.ReplaceEach | utils/util.go:21-23 | when no key occurs the text comes back unchanged |
| Utils.StringToNumber | utils/util.go:17-25 | when no key occurs in the upper-cased input, the result is the upper-cased input |
| Utils.StringToNumberWithoutLetters | utils/util.go:19-25 | text without letters, such as a numeric field, is returned unchanged |
| Utils.ReplaceEachAround | utils/util.go:21-23 | a character no key holds splits the substitution |
| Utils.ReplaceEachName | utils/util.go:21-23 | a name on its own becomes its value when keys share one length, values are shorter, and no earlier entry repeats the key |
| Utils.StringToNumberRange | utils/util.go:19-25 | two names joined by a dash, written in any case, become their two values joined by a dash |
| Utils.RemoveDups | utils/util.go:27-39 | the result has no duplicates, holds exactly the input's values and is no longer than the input |
| Utils.Insert | utils/util.go:45 | inserting a new value into an ascending list keeps it ascending and adds exactly that value |
| Utils.SortUnique | utils/util.go:45 | sorting a duplicate-free list gives an ascending list with the same values |
| Utils.SortedUniqueInts | utils/util.go:41-47 | the result is strictly ascending and holds exactly the input's values |
| Utils.AscendingUnique | utils/util.go:41-47 | two strictly ascending lists with the same values are equal |
| Utils.SortedUniqueIntsOfAscending | utils/util.go:43-47 | a strictly ascending list is returned unchanged |
| Utils.SortedUniqueIntsIdempotent | utils/util.go:43-47 | applying SortedUniqueInts twice is the same as once |
| Utils.SortedUniqueIntsCanonical | utils/util.go:41-47 | two lists give the same result exactly when they hold the same values |
| Utils.SortedUniqueIntsExample | utils/util.go:41-47 | [0, 1, 2, 3, 17, 8, 21, 1] becomes [0, 1, 2, 3, 8, 17, 21] |
| Expressions.PatternCoversGrammar | expressions/default.go:82 | the pattern accepts every element of the documented grammar, and beyond it exactly the texts ending in `*`, `/` and a numeral |
| Expressions.NewDefaultSyntax | expressions/default.go:61-87 | a fresh holder keeps the line and the default day and month tables and holds no fields; the Go constructor's error is always nil, so none is modelled |
| Expressions.UnanchoredStepAccepted | expressions/default.go:82 | "x*/5" matches the pattern but is not in the grammar |
| Expressions.AnchoredPattern | expressions/default.go:82 | corrected: with its start anchor restored the pattern accepts exactly the grammar, which is what the pattern accepts minus the texts only the unanchored alternative admits |
| Expressions.MatchesElement | expressions/default.go:82 | the element pattern, one disjunct per alternative, the `*`/int one without a start anchor; PatternCoversGrammar relates it to the grammar |
| Expressions.ValidField | expressions/default.go:157-167 | a field passes when each of its comma-separated elements matches the pattern; ValidateTokens states the check's outcome against it |
| Expressions.SignedNumberIsNotValidField | expressions/default.go:82 | the field "+3" fails the pattern |
| Expressions.ValidateFields | expressions/default.go:101-107 | passes exactly when the line splits into six tokens; otherwise a field-count error |
| Expressions.ValidateElements | expressions/default.go:159-165 | passes exactly when every element matches; a failure names the whole line |
| Expressions.ValidateTokens | expressions/default.go:157-167 | passes exactly when every comma-separated element of the field matches the pattern; a failure names the whole line |
| Expressions.ValidateAll | expressions/default.go:137-142 | passes exactly when every given field is valid |
| Expressions.AcceptedFields | expressions/default.go:157-167 | the fields "19", "*", "19-26", "*/10", "2/10", "2-9/10" and "4-4" are valid |
| Expressions.AcceptedList | expressions/default.go:157-167 | the list "19,*/10,2-9/10" is valid |
| Expressions.LetterRejected | expressions/default.go:157-167 | the field "a" is invalid |
| Expressions.NegativeRejected | expressions/default.go:157-167 | the field "-4" is invalid |
| Expressions.StarIntervalRejected | expressions/default.go:157-167 | the field "*-4" is invalid |
| Expressions.IntervalToStarRejected | expressions/default.go:157-167 | the field "4-*" is invalid |
| Expressions.StepIntervalRejected | expressions/default.go:157-167 | the field "4/4-6" is invalid |
| Expressions.FiveFieldsRejected | expressions/default.go:101-107 | the line "1 2 3 4 5" fails the field-count check |
| Expressions.Tokenize | expressions/default.go:127-153 | passes exactly when every token but the last two is a valid field after name substitution; success stores tokens 0 to 5, failure keeps the state and reports a syntax error naming the line |
| Expressions.SubstituteWithoutLetters | expressions/default.go:133-134 | tokens 3 and 4 without letters are left as they are by the name substitution |
| Expressions.Substitute | expressions/default.go:133-134 | the name substitution keeps the number of tokens and changes no token other than 3 and 4 |
| Expressions.Elements | expressions/default.go:110-123 | stored fields are returned as they are; otherwise a wrong field count is reported before any syntax error; on a fresh six-token line it succeeds exactly when the first four tokens, after name substitution, are valid fields, and then returns tokens 0 to 5 after substitution; success stores the fields returned; failure keeps the state |
| Expressions.ElementsFromLine | expressions/default.go:144-150 | a first success yields tokens 0 to 5 with months and days substituted and the first four fields checked |
| Expressions.ElementsIdempotent | expressions/default.go:111-113 | asking again returns the same answer and leaves the state alone |
| Expressions.ElementsOfAcceptedLine | expressions/default.go:110-123 | a fresh holder of "*/15 0 1-5 4 1-3/7 command" yields those six fields unchanged |
| Expressions.ValidateExpression | expressions/default.go:90-97 | an argument without six fields is rejected with a field-count error and no state change |
| Expressions.ValidateExpressionIgnoresArgument | expressions/default.go:90-97 | once the argument has six fields, the answer is the tokenization of the stored line, whatever the argument |
| Expressions.DefaultTablesHoldNames | expressions/default.go:67-79 | every key of both tables is a non-empty name starting with a letter |
| Expressions.DayTableShape | expressions/default.go:67 | every day name is three characters long and holds no dash, and every value is shorter than three characters |
| Expressions.MonthTableShape | expressions/default.go:68-79 | every month name is three characters long and holds no dash, and every value is shorter than three characters |
| Expressions.LowerCaseDayRange | expressions/default.go:134 | "tue-WED" becomes "2-3" |
| Expressions.DayRangeSubstituted | expressions/default.go:134 | "SUN-WED" becomes "0-3" |
| Expressions.MonthRangeSubstituted | expressions/default.go:133 | "JUN-DEC" becomes "6-12" |
| Expressions.TokenizeSkipsDayOfWeek | expressions/default.go:137-142 | tokenization passes once the first four substituted tokens are valid, whatever the day-of-week token holds, and stores that token unchecked |
| Expressions.DayOfWeekNeverChecked | expressions/default.go:137 | the line "* * * * +3 cmd" is accepted although its day-of-week field fails the pattern |
| Expressions.TokenizeChecked | expressions/default.go:127-153 | corrected: passes exactly when every token but the command is a valid field |
| Expressions.TokenizeCheckedFields | expressions/default.go:137-142 | corrected: after success every temporal field, day of week included, is valid |
| Expressions.TokenizeCheckedRejectsDayOfWeek | expressions/default.go:137 | corrected: the line "* * * * +3 cmd" is rejected |
| Parsers.ManageIntervals | parsers/default.go:139-154 | succeeds exactly when both sides are integers and the start does not exceed the end, returning those bounds; a non-integer side is a syntax error, a reversed pair an order error |
| Parsers.ManageIntervalsOfNumbers | parsers/default.go:149-153 | two written integers give their bounds when in order and an order error otherwise |
| Parsers.IntervalCases | parsers/default.go:139-154 | "3-3" gives the bounds (3, 3), "3-1" is an order error and "A-45" a syntax error naming the interval |
| Parsers.StepValues | parsers/default.go:194-196 | the progression is non-empty exactly when start <= end, starts at start, stays within [start, end], rises by exactly the step, and its last value plus the step passes end |
| Parsers.StepValuesIndex | parsers/default.go:194-196 | the i-th value is start + i * step |
| Parsers.StepValuesLength | parsers/default.go:194-196 | there are (end - start) / step + 1 values when start <= end, none otherwise |
| Parsers.StepValuesMembers | parsers/default.go:194-196 | a value is emitted exactly when it lies in [start, end] and is a whole number of steps past start |
| Parsers.StepBase | parsers/default.go:168-192 | a base that is neither `*` nor an interval runs to the allowed maximum |
| Parsers.StepBaseCases | parsers/default.go:177-192 | `*` gives the allowed range, a number n gives (n, maximum), and a-b gives (a, b) or an order error |
| Parsers.ManageSteps | parsers/default.go:164-199 | succeeds exactly when the step and the base parse; a non-integer step is a syntax error, in which the model records the step text that the Go message does not print; on success the values are the progression over the base's bounds: empty exactly when the start exceeds the end, otherwise starting at the start, rising by the step, staying within the bounds and stopping only where the next value would pass the end |
| Parsers.ElementValues | parsers/default.go:105-132 | an element fails only with a syntax or an order error |
| Parsers.ElementSingleValue | parsers/default.go:127-132 | an element with neither one slash nor one dash expands to itself when it is an integer, and is a syntax error naming the element otherwise |
| Parsers.Parse | parsers/default.go:93-135 | a field fails only with a syntax or an order error |
| Parsers.ParseElements | parsers/default.go:96-133 | a failure is a syntax or order error; with no `*` among the elements the values gathered so far remain a prefix of the result; with a `*` a success is the whole allowed range |
| Parsers.ConcatValuesAppend | parsers/default.go:112-132 | the values of two runs of elements are those of the first followed by those of the second |
| Parsers.ParseConcatenates | parsers/default.go:93-135 | without `*` and errors, parse concatenates the values of the elements in element order, neither sorting nor removing duplicates |
| Parsers.ParseJoined | parsers/default.go:94-134 | two such fields joined by a comma parse to the values of the first followed by those of the second |
| Parsers.ParseStarAbsorbs | parsers/default.go:96-103 | a `*` element yields exactly the allowed range, whatever comes before or after it, provided the elements before it expand |
| Parsers.ParseFirstError | parsers/default.go:107-131 | the first element that fails decides the error, even when a `*` follows |
| Parsers.ElementNumber | parsers/default.go:127-132 | a number expands to itself |
| Parsers.ElementInterval | parsers/default.go:116-126 | a-b expands to every value from a to b, or is an order error when a > b |
| Parsers.StepElement | parsers/default.go:106-113 | an element with one slash and a positive step expands to the progression over its base's bounds, or fails with the base's error |
| Parsers.ElementStarStep | parsers/default.go:186-196 | `*`/s expands to the progression over the whole allowed range |
| Parsers.ElementNumberStep | parsers/default.go:186-196 | n/s expands to the progression from n up to the allowed maximum |
| Parsers.ElementIntervalStep | parsers/default.go:177-196 | a-b/s expands to the progression from a up to b, or is an order error when a > b |
| Parsers.StarStepCase | parsers/default.go:164-197 | the minute element "*/10" is the progression from 0 to 59 by 10 |
| Parsers.NumberStepCase | parsers/default.go:164-197 | the minute element "4/10" is the progression from 4 to 59 by 10 |
| Parsers.IntervalStepCase | parsers/default.go:164-197 | the minute element "1-19/10" is the progression from 1 to 19 by 10 |
| Parsers.ProgressionsByTen | parsers/default.go:194-196 | those progressions are [0, 10, 20, 30, 40, 50], [4, 14, 24, 34, 44, 54] and [1, 11] |
| Parsers.NonNumericStepCase | parsers/default.go:170-173 | the element "1-19/*" is a syntax error; the model records the step "*" in it |
| Parsers.StarAfterNumberCase | parsers/default.go:96-103 | the minute field "18,*" is the whole minute range |
| Parsers.ParseOneElement | parsers/default.go:96-134 | a one-element field gives the allowed range for `*` and that element's values otherwise |
| Parsers.GrammarElementExpands | parsers/default.go:105-132 | every element of the documented grammar other than `*` expands, or fails only because an interval is reversed |
| Parsers.UnanchoredStepRejected | parsers/default.go:186-191 | a text p followed by `*`, `/` and a numeral, where p is non-empty and holds no slash and no dash (such as "x*/5"), passes the pattern and fails to expand, with a syntax error naming the text before the slash |
| Parsers.MalformedStepExpands | parsers/default.go:177-196 | "5-5-*/10" passes the pattern but is outside the grammar, and as a minutes field expands to the progression from 5 to 59 by 10, its base being read as the start 5 |
| Parsers.InAllowedValuesAscending | parsers/default.go:362-373 | on a non-empty ascending list the check passes exactly when every value is in range |
| Parsers.InAllowedValuesNeedsOrder | parsers/default.go:368-373 | on the unsorted list [5, 70, 10] the check passes although 70 is out of range |
| Parsers.InAllowedValues | parsers/default.go:368-373 | a non-empty list whose values all lie in the range always passes; the converse needs order (InAllowedValuesAscending) |
| Parsers.AllowedValues | parsers/default.go:66-70 | every field's range is non-empty and starts at 0 or above: minutes 0-59, hours 0-23, days of the month 1-31, months 1-12, days of the week 0-6 |
| Parsers.NewDefaultParser | parsers/default.go:64-79 | the parser is built exactly when the holder yields its fields, carries those fields and no results, and otherwise fails with the holder's error |
| Parsers.NewDefaultParserFields | parsers/default.go:73-78 | a parser built from a fresh holder carries tokens 0 to 5 of the line, month and day of week substituted |
| Parsers.Accessor | parsers/default.go:216-236 | a cached list is returned as it is; otherwise a parse error is returned with no state change, or the sorted values are cached and the call succeeds exactly when every value is in range, returning the values as parsed, else reports the range |
| Parsers.Command | parsers/default.go:340-351 | when no other command is cached, returns the command field and caches it; the fields and the temporal lists are untouched |
| Parsers.AccessorCachesParse | parsers/default.go:225-230 | the cache always holds the sorted, duplicate-free parse of the field, and other fields' lists are untouched |
| Parsers.AccessorSecondCall | parsers/default.go:217-218 | the second call returns the cached sorted list without an error |
| Parsers.StaleOutOfRange | parsers/default.go:230-235 | an out-of-range number errors on the first call and is returned without error on the second |
| Parsers.FirstCallUnsorted | parsers/default.go:230-235 | two numbers in descending order come back as written on the first call and sorted on the second |
| Parsers.Expand | parsers/default.go:224-235 | corrected: succeeds exactly when parsing ends and yields a non-empty list entirely in range, returning an ascending list with exactly its values; an endless step loop is reported |
| Parsers.ExpandCanonical | parsers/default.go:230 | corrected: the values are SortedUniqueInts of the parse |
| Parsers.CheckedAccessor | parsers/default.go:216-236 | corrected: with a sound cache the answer is Expand of the field and the cache stays sound; other fields are untouched |
| Parsers.CheckedAccessorStable | parsers/default.go:217-218 | corrected: a second call gives the same answer, always ascending and in range |
| Parsers.CheckedOutOfRange | parsers/default.go:230-234 | corrected: an out-of-range number is reported on every call |
| Parsers.EmptyExpansion | parsers/default.go:368-372 | a number above the maximum with a step, minute "70/10" say, expands to nothing, so the original accessor cannot run, and the corrected one reports an empty field |
| Parsers.ZeroStepText | parsers/default.go:194-196 | "*/0" is in the grammar but its expansion over a non-empty range never ends |
| Parsers.ZeroStepNeverEnds | parsers/default.go:194-196 | on a "*/0" field the original accessor cannot run and the corrected one reports the endless step |
| Validators.NewValidator | validators/default.go:38-45 | a fresh validator keeps the line and holds no fields |
| Validators.ValidateInput | validators/default.go:47-53 | passes exactly when the line splits into six tokens; a failure reports the count found and the six expected |
| Validators.Tokenize | validators/default.go:66-81 | the outcome is ValidateInput's; success stores tokens 0 to 5 with no substitution or check; failure stores nothing |
| Validators.CronExpression | validators/default.go:55-64 | stored fields are returned as they are; otherwise success exactly on six tokens, yielding them in order, and failure is a field-count error with no state change |
| Validators.CronExpressionIdempotent | validators/default.go:55-58 | asking again returns the same fields and leaves the state alone |
| Validators.CronExpressionJoinsBack | validators/default.go:71-79 | the fields joined by single spaces give the line back |
| Validators.CronExpressionOfJoined | validators/default.go:71-79 | six space-free fields joined by single spaces are read back as they were |

## Left out

- printers/simple.go and main.go: output formatting, flag handling and process exit are I/O around the engine.
- The Go regular-expression engine: only the one element pattern of expressions/default.go:82 is modelled, as a predicate written out alternative by alternative.
- Text.Atoi: integers are unbounded, so the 64-bit range error of `strconv.Atoi` is not modelled; a leading `+` or `-` is accepted as Go does.
- Utils.RangeValues: integers are unbounded, so Go's `i++` wrap-around when the upper bound is the 64-bit maximum (parsers/default.go:123 reaches it for "9223372036854775807-9223372036854775807"), where the Go loop never ends, is not modelled; the model returns the one-element list.
- Parsers.StepValues: the step loop runs on unbounded integers, so Go's wrap-around of `i + step` near the 64-bit limit is not modelled; the function requires a positive step or an empty range, the exact condition under which the Go loop ends.
- Parsers.Accessor: requires that the field's expansion ends and, when parse succeeds, yields at least one value; the Go code loops forever or indexes an empty slice otherwise. The corrected Parsers.CheckedAccessor has no such requirement.
- Parsers.ManageSteps, Parsers.ElementValues, Parsers.ParseElements, Parsers.Parse: require that the step loop ends (StepHalts, ElementHalts, ParseHalts, FieldHalts), for the same reason.
- Parsers.Parse: on a step error the Go code returns the values gathered so far next to the error; every caller discards them, so the model returns only the error.
- Expressions.Tokenize: requires at least six tokens. The Go code indexes tokens 3 and 4 before its check loop and token 5 after it, so a line of five tokens whose tokens 0 to 2 include an invalid one returns a syntax error instead of panicking; the model leaves that path out. It is reachable only through ValidateExpression, because Elements checks the count first; ValidateExpression checks its argument rather than the stored line, so Expressions.ValidateExpression requires that the stored line has six tokens when the argument passes.
- Utils.RemoveDups: Go returns the values in map-iteration order, which is unspecified; the model keeps first occurrences and promises only the set of values and the absence of duplicates.
- Utils.StringToNumber: the name tables are Go maps, iterated in unspecified order; the model applies them in the order they are written. No claim is made about keys whose occurrences overlap.
- Text.ToUpper: ASCII letters only; Unicode case mapping is not modelled.
- Error texts: each Go error message is reduced to an error kind. Some kinds carry values the Go text does not print: the step text of a step syntax error (parsers/default.go:172) and the reversed bounds of an order error (parsers/default.go:150). The holder's name that the field-count messages print (expressions/default.go:104, validators/default.go:50) is dropped.
- Results and generateResults (parsers/default.go:203-213, 355-360): they discard the accessors' errors and only run while no result is cached; the accessors they call are modelled.
- The Parser, Holder and Validator interfaces: the concrete types are modelled directly.
- Object identity of the cached structures: the caches are modelled as immutable values returned next to each answer.

## Findings

| source | as written | input that shows it | evidently intended | confidence | as-written member | corrected member |
|---|---|---|---|---|---|---|
| parsers/default.go:230-235 | the accessor caches the sorted values before the range check, and a later call returns any non-empty cache without checking | minute field "60": first call errors, second call returns [60] | an out-of-range field errors on every call | high, not executed | Parsers.StaleOutOfRange | Parsers.CheckedOutOfRange |
| parsers/default.go:235 | the first call returns the values as parse produced them, later calls the sorted cache | minute field "30,10": first call [30, 10], second [10, 30] | every call returns the sorted, duplicate-free list | high, not executed | Parsers.FirstCallUnsorted | Parsers.CheckedAccessorStable |
| parsers/default.go:368-372 | inAllowedValues reads the first element of a list that may be empty | minute field "70/10" expands to nothing | an empty expansion is reported as an error | high, not executed | Parsers.EmptyExpansion | Parsers.Expand |
| parsers/default.go:194 | the step loop never ends when the step is zero, and the element pattern admits a zero step | minute field "*/0" | a zero step is rejected | high, not executed | Parsers.ZeroStepNeverEnds | Parsers.Expand |
| expressions/default.go:137 | the check loop stops before token 4, so the day-of-week field is never checked | the line "* * * * +3 cmd" | every field except the command is checked | high, not executed | Expressions.DayOfWeekNeverChecked | Expressions.TokenizeCheckedRejectsDayOfWeek |
| expressions/default.go:82 | the `*`/int alternative of the element pattern has no start anchor, and the step expander reads a base with two or more dashes as the number before its first dash | minutes field "5-5-*/10" passes the check and expands like "5/10" | only elements of the documented grammar pass the check | high, not executed | Parsers.MalformedStepExpands | Expressions.AnchoredPattern |

=== FILE: expressions.dfy ===
/** The expression holder: splits a cron line into six fields, replaces month
    and day names by numbers, and checks the syntax of each field against the
    element pattern. */
module Expressions {
  import opened Outcomes
  import opened Text
  import opened Utils
  import opened Fields

  const DaysMapper: Mapper :=
    [("SUN", "0"), ("MON", "1"), ("TUE", "2"), ("WED", "3"), ("THU", "4"), ("FRI", "5"), ("SAT", "6")]

  const MonthsMapper: Mapper :=
    [("JAN", "1"), ("FEB", "2"), ("MAR", "3"), ("APR", "4"), ("MAY", "5"), ("JUN", "6"),
     ("JUL", "7"), ("AUG", "8"), ("SEP", "9"), ("OCT", "10"), ("NOV", "11"), ("DEC", "12")]

  /** The holder's state: the line it was built from, its name tables and,
      once a tokenization has succeeded, the fields it produced. */
  datatype Syntax = Syntax(
    input: string,
    cronElements: Option<CronElements>,
    daysMapper: Mapper,
    monthsMapper: Mapper)

  /** NewDefaultSyntax: a fresh holder keeps the line and the default day and
      month tables, and holds no fields yet. */
  function NewDefaultSyntax(input: string): (ds: Syntax)
    ensures ds.input == input && ds.cronElements.None?
    ensures ds.daysMapper == DaysMapper && ds.monthsMapper == MonthsMapper
  {
    Syntax(input, None, DaysMapper, MonthsMapper)
  }

  // ---------------------------------------------------------------------------
  // The element pattern
  // ---------------------------------------------------------------------------

  /** `s[i]` is `sep` and the text on each side of it is a numeral. */
  predicate NumeralsAround(s: string, sep: char, i: int) {
    0 <= i < |s| && s[i] == sep && IsNumeral(s[..i]) && IsNumeral(s[i + 1..])
  }

  /** `int-int` */
  predicate IsInterval(s: string) {
    exists i :: 0 <= i < |s| && NumeralsAround(s, '-', i)
  }

  /** `int/int` */
  predicate IsNumericStep(s: string) {
    exists i :: 0 <= i < |s| && NumeralsAround(s, '/', i)
  }

  /** `int-int/int` */
  predicate IsIntervalStep(s: string) {
    exists j :: 0 <= j < |s| && s[j] == '/' && IsInterval(s[..j]) && IsNumeral(s[j + 1..])
  }

  /** `*` `/` int */
  predicate IsStarStep(s: string) {
    |s| > 2 && s[0] == '*' && s[1] == '/' && IsNumeral(s[2..])
  }

  /** Any text that ends in `*` `/` int. */
  predicate EndsWithStarStep(s: string) {
    exists i :: 0 <= i < |s| - 1 && s[i] == '*' && s[i + 1] == '/' && IsNumeral(s[i + 2..])
  }

  /** The holder's element pattern, alternative by alternative. The
      alternative for `*` `/` int carries no start anchor, so it accepts any
      text that ends in a star, a slash and a numeral. */
  predicate MatchesElement(s: string) {
    || IsNumeral(s)
    || s == "*"
    || IsInterval(s)
    || EndsWithStarStep(s)
    || IsNumericStep(s)
    || IsIntervalStep(s)
  }

  /** The documented element grammar, each form matching the whole element:
      int | int-int | `*` | `*` / int | int/int | int-int/int */
  predicate InGrammar(s: string) {
    || IsNumeral(s)
    || s == "*"
    || IsInterval(s)
    || IsStarStep(s)
    || IsNumericStep(s)
    || IsIntervalStep(s)
  }

  /** The pattern accepts every element of the grammar, and beyond it only
      texts that end in a star, a slash and a numeral. */
  lemma PatternCoversGrammar(s: string)
    ensures InGrammar(s) ==> MatchesElement(s)
    ensures MatchesElement(s) <==> InGrammar(s) || EndsWithStarStep(s)
  {
    if IsStarStep(s) {
      assert s[0] == '*' && s[1] == '/' && IsNumeral(s[0 + 2..]);
    }
  }

  /** The missing start anchor lets x, a star, a slash and 5 through, although
      that text is not in the grammar. */
  lemma UnanchoredStepAccepted()
    ensures MatchesElement("x*/5") && !InGrammar("x*/5")
  {
    var s := "x*/5";
    assert s[1] == '*' && s[2] == '/' && IsNumeral(s[1 + 2..]);
    assert !IsNumeral(s) by { assert !IsDigit(s[0]); }
    forall i | 0 <= i < |s|
      ensures !NumeralsAround(s, '-', i) && !NumeralsAround(s, '/', i)
    {
      if i > 0 { assert !IsNumeral(s[..i]) by { assert !IsDigit(s[..i][0]); } }
    }
    forall j | 0 <= j < |s| && s[j] == '/'
      ensures !IsInterval(s[..j])
    {
      assert j == 2;
      assert '-' !in s[..j];
    }
  }

  /** An interval holds only digits and its dash. */
  lemma IntervalLacks(t: string, c: char)
    requires IsInterval(t) && c != '-' && !IsDigit(c)
    ensures c !in t
  {
    var i :| 0 <= i < |t| && NumeralsAround(t, '-', i);
    assert t == t[..i] + [t[i]] + t[i + 1..];
    NumeralLacks(t[..i], c);
    NumeralLacks(t[i + 1..], c);
  }

  /** Every form of the grammar other than `*` and `*`/int holds no star. */
  lemma StarFreeForms(s: string)
    ensures InGrammar(s) && s != "*" && !IsStarStep(s) ==> '*' !in s
  {
    if IsNumeral(s) {
      NumeralLacks(s, '*');
    } else if IsInterval(s) {
      IntervalLacks(s, '*');
    } else if IsNumericStep(s) {
      var i :| 0 <= i < |s| && NumeralsAround(s, '/', i);
      assert s == s[..i] + [s[i]] + s[i + 1..];
      NumeralLacks(s[..i], '*');
      NumeralLacks(s[i + 1..], '*');
    } else if IsIntervalStep(s) {
      var j :| 0 <= j < |s| && s[j] == '/' && IsInterval(s[..j]) && IsNumeral(s[j + 1..]);
      assert s == s[..j] + [s[j]] + s[j + 1..];
      IntervalLacks(s[..j], '*');
      NumeralLacks(s[j + 1..], '*');
    }
  }

  /** The pattern with the start anchor restored on its `*`/int alternative is
      the grammar: it accepts what the pattern accepts, except the texts that
      only the unanchored alternative lets through. */
  lemma AnchoredPattern(s: string)
    ensures InGrammar(s) <==> MatchesElement(s) && (EndsWithStarStep(s) ==> IsStarStep(s))
  {
    PatternCoversGrammar(s);
    StarFreeForms(s);
    if EndsWithStarStep(s) && !IsStarStep(s) {
      var i :| 0 <= i < |s| - 1 && s[i] == '*' && s[i + 1] == '/' && IsNumeral(s[i + 2..]);
      assert s[i] in s;
    }
  }

  // ---------------------------------------------------------------------------
  // Field checks
  // ---------------------------------------------------------------------------

  /** Every comma-separated element of the field matches the element pattern. */
  predicate ValidField(token: string) {
    forall e :: e in Split(token, ',') ==> MatchesElement(e)
  }

  /** validateFields: the line splits on single spaces into exactly six tokens. */
  function ValidateFields(input: string): (r: Outcome)
    ensures r.Pass? <==> |Split(input, Separator)| == FieldsExpected
    ensures r.Pass? <==> multiset(input)[Separator] == 5
    ensures r.Fail? ==> r.error.FieldCountError?
  {
    CheckFieldCount(input)
  }

  /** Checks elements in order and stops at the first that does not match. */
  function ValidateElements(es: seq<string>, input: string): (r: Outcome)
    ensures r.Pass? <==> forall k :: 0 <= k < |es| ==> MatchesElement(es[k])
    ensures r.Fail? ==> r.error == SyntaxError(input)
  {
    if |es| == 0 then Pass
    else if !MatchesElement(es[0]) then Fail(SyntaxError(input))
    else ValidateElements(es[1..], input)
  }

  /** validateTokens: every comma-separated element of a field must match the
      pattern; the error names the whole line. */
  function ValidateTokens(ds: Syntax, token: string): (r: Outcome)
    ensures r.Pass? <==> ValidField(token)
    ensures r.Fail? ==> r.error == SyntaxError(ds.input)
  {
    ValidateElements(Split(token, ','), ds.input)
  }

  /** Checks the fields in order and stops at the first invalid one. */
  function ValidateAll(ds: Syntax, ts: seq<string>): (r: Outcome)
    ensures r.Pass? <==> forall k :: 0 <= k < |ts| ==> ValidField(ts[k])
    ensures r.Fail? ==> r.error == SyntaxError(ds.input)
  {
    if |ts| == 0 then Pass
    else match ValidateTokens(ds, ts[0])
      case Fail(e) => Fail(e)
      case Pass => ValidateAll(ds, ts[1..])
  }

  // ---------------------------------------------------------------------------
  // Tokenization
  // ---------------------------------------------------------------------------

  /** Month names in token 3 and day names in token 4 replaced by numbers. */
  function Substitute(ds: Syntax, tokens: seq<string>): (t: seq<string>)
    requires |tokens| >= 5
    ensures |t| == |tokens|
    ensures forall k :: 0 <= k < |tokens| && k != 3 && k != 4 ==> t[k] == tokens[k]
  {
    tokens[3 := StringToNumber(tokens[3], ds.monthsMapper)][4 := StringToNumber(tokens[4], ds.daysMapper)]
  }

  /** tokenize: splits the stored line, substitutes names in tokens 3 and 4,
      checks every token but the last two, and on success stores tokens 0..5
      as the fields. The line must have at least six tokens. */
  function Tokenize(ds: Syntax): (r: (Outcome, Syntax))
    requires |Split(ds.input, Separator)| >= FieldsExpected
    ensures var t := Substitute(ds, Split(ds.input, Separator));
      r.0.Pass? <==> forall k :: 0 <= k < |t| - 2 ==> ValidField(t[k])
    ensures r.0.Pass? ==> r.1 == ds.(cronElements := Some(FromTokens(Substitute(ds, Split(ds.input, Separator)))))
    ensures r.0.Fail? ==> r.1 == ds && r.0.error == SyntaxError(ds.input)
  {
    var tokens := Substitute(ds, Split(ds.input, Separator));
    var checked := tokens[..|tokens| - 2];
    assert forall k :: 0 <= k < |checked| ==> checked[k] == tokens[k];
    match ValidateAll(ds, checked)
    case Fail(e) => (Fail(e), ds)
    case Pass => (Pass, ds.(cronElements := Some(FromTokens(tokens))))
  }

  /** Elements: the stored fields if a tokenization has already succeeded;
      otherwise the field count is checked first, then the line is tokenized. */
  function Elements(ds: Syntax): (r: (Result<CronElements>, Syntax))
    ensures ds.cronElements.Some? ==> r == (Ok(ds.cronElements.value), ds)
    ensures ds.cronElements.None? && multiset(ds.input)[Separator] != 5 ==>
      r.0.Err? && r.0.error.FieldCountError? && r.1 == ds
    ensures r.0.Ok? ==> r.1.cronElements == Some(r.0.value) && r.1.input == ds.input
    ensures r.0.Err? ==> r.1 == ds
    ensures ds.cronElements.None? && |Split(ds.input, Separator)| == FieldsExpected ==>
      var t := Substitute(ds, Split(ds.input, Separator));
      && (r.0.Ok? <==> forall k :: 0 <= k < 4 ==> ValidField(t[k]))
      && (r.0.Ok? ==> r.0.value == FromTokens(t))
  {
    if ds.cronElements.Some? then (Ok(ds.cronElements.value), ds)
    else match ValidateFields(ds.input)
      case Fail(e) => (Err(e), ds)
      case Pass =>
        var (o, ds') := Tokenize(ds);
        match o
        case Fail(e) => (Err(e), ds')
        case Pass => (Ok(ds'.cronElements.value), ds')
  }

  /** A first successful call to Elements yields tokens 0..5 of the line:
      minute, hour, day of month and command verbatim, month and day of week
      after name substitution; the first four have passed the syntax check. */
  lemma ElementsFromLine(ds: Syntax)
    requires ds.cronElements.None? && Elements(ds).0.Ok?
    ensures var tokens := Split(ds.input, Separator);
      var ce := Elements(ds).0.value;
      && |tokens| == 6
      && ce.minute == tokens[0] && ce.hour == tokens[1] && ce.dayMonth == tokens[2]
      && ce.month == StringToNumber(tokens[3], ds.monthsMapper)
      && ce.dayWeek == StringToNumber(tokens[4], ds.daysMapper)
      && ce.command == tokens[5]
      && ValidField(ce.minute) && ValidField(ce.hour) && ValidField(ce.dayMonth) && ValidField(ce.month)
  {
    var t := Substitute(ds, Split(ds.input, Separator));
    assert forall k :: 0 <= k < |t| - 2 ==> ValidField(t[k]);
    assert ValidField(t[0]) && ValidField(t[1]) && ValidField(t[2]) && ValidField(t[3]);
  }

  /** Elements is memoized: calling it again on the state it returned gives the
      same answer and leaves the state alone. */
  lemma ElementsIdempotent(ds: Syntax)
    ensures var (r1, ds1) := Elements(ds);
      Elements(ds1) == (r1, ds1)
  {
  }

  /** ValidateExpression: checks the field count of its argument, then
      tokenizes the line the holder was built from. */
  function ValidateExpression(ds: Syntax, input: string): (r: (Outcome, Syntax))
    requires ValidateFields(input).Fail? || |Split(ds.input, Separator)| >= FieldsExpected
    ensures multiset(input)[Separator] != 5 ==> r.0.Fail? && r.0.error.FieldCountError? && r.1 == ds
  {
    match ValidateFields(input)
    case Fail(e) => (Fail(e), ds)
    case Pass => Tokenize(ds)
  }

  /** Once the argument has six fields, ValidateExpression's answer depends
      only on the stored line, not on the argument. */
  lemma ValidateExpressionIgnoresArgument(ds: Syntax, a: string, b: string)
    requires multiset(a)[Separator] == 5 && multiset(b)[Separator] == 5
    requires |Split(ds.input, Separator)| >= FieldsExpected
    ensures ValidateExpression(ds, a) == ValidateExpression(ds, b) == Tokenize(ds)
  {
  }

  // ---------------------------------------------------------------------------
  // Name substitution on the default tables
  // ---------------------------------------------------------------------------

  /** Day names are three characters, replaced by at most two; none holds a dash. */
  lemma DayTableShape()
    ensures FixedWidthNames(DaysMapper, 3) && KeysAvoid(DaysMapper, '-')
  {
  }

  /** Month names are three characters, replaced by at most two; none holds a dash. */
  lemma MonthTableShape()
    ensures FixedWidthNames(MonthsMapper, 3) && KeysAvoid(MonthsMapper, '-')
  {
  }

  /** A day range written in lower case is substituted like its upper-case form. */
  lemma LowerCaseDayRange()
    ensures StringToNumber("tue-WED", DaysMapper) == "2-3"
  {
    assert "tue" + "-" + "WED" == "tue-WED";
    assert ToUpper("tue") == "TUE";
    assert DaysMapper[2].1 + "-" + DaysMapper[3].1 == "2-3";
    DayTableShape();
    assert FirstKey(DaysMapper, 2);
    assert FirstKey(DaysMapper, 3);
    StringToNumberRange("tue", "WED", DaysMapper, 3, 2, 3);
  }

  lemma DayRangeSubstituted()
    ensures StringToNumber("SUN-WED", DaysMapper) == "0-3"
  {
    assert "SUN" + "-" + "WED" == "SUN-WED";
    assert ToUpper("SUN") == "SUN";
    assert DaysMapper[0].1 + "-" + DaysMapper[3].1 == "0-3";
    DayTableShape();
    assert FirstKey(DaysMapper, 0);
    assert FirstKey(DaysMapper, 3);
    StringToNumberRange("SUN", "WED", DaysMapper, 3, 0, 3);
  }

  lemma MonthRangeSubstituted()
    ensures StringToNumber("JUN-DEC", MonthsMapper) == "6-12"
  {
    assert "JUN" + "-" + "DEC" == "JUN-DEC";
    assert ToUpper("JUN") == "JUN";
    assert MonthsMapper[5].1 + "-" + MonthsMapper[11].1 == "6-12";
    MonthTableShape();
    assert FirstKey(MonthsMapper, 5);
    assert FirstKey(MonthsMapper, 11);
    StringToNumberRange("JUN", "DEC", MonthsMapper, 3, 5, 11);
  }

  // ---------------------------------------------------------------------------
  // Day of week is not checked
  // ---------------------------------------------------------------------------

  /** The holder's tables hold names: non-empty keys starting with a letter. */
  lemma DefaultTablesHoldNames(input: string)
    ensures KeysAreNames(NewDefaultSyntax(input).daysMapper)
    ensures KeysAreNames(NewDefaultSyntax(input).monthsMapper)
  {
  }

  /** The tokens of the line "* * * * +3 cmd": a day of week with a sign. */
  const SignedDayLine: seq<string> := ["*", "*", "*", "*", "+3", "cmd"]

  /** The line "* * * * +3 cmd" splits into SignedDayLine. */
  lemma SplitSignedDayLine()
    ensures Split("* * * * +3 cmd", Separator) == SignedDayLine
  {
    assert Join(SignedDayLine, Separator) == "* * * * +3 cmd";
    SplitJoin(SignedDayLine, Separator);
  }

  lemma StarIsValidField(s: string)
    requires s == "*"
    ensures ValidField(s)
  {
    assert Split(s, ',') == [s];
  }

  lemma SignedNumberIsNotValidField(s: string)
    requires s == "+3"
    ensures !ValidField(s)
  {
    assert Split(s, ',') == [s];
    assert s in Split(s, ',');
    assert !IsNumeral(s) by { assert !IsDigit(s[0]); }
    forall i | 0 <= i < |s|
      ensures !NumeralsAround(s, '-', i) && !NumeralsAround(s, '/', i)
    {
    }
    assert !IsIntervalStep(s);
    assert !EndsWithStarStep(s);
    assert !MatchesElement(s);
  }

  /** Name substitution leaves tokens 3 and 4 alone when they hold no letter. */
  lemma SubstituteWithoutLetters(ds: Syntax, tokens: seq<string>)
    requires |tokens| >= 5
    requires KeysAreNames(ds.daysMapper) && KeysAreNames(ds.monthsMapper)
    requires forall i :: 0 <= i < |tokens[3]| ==> !IsLetter(tokens[3][i])
    requires forall i :: 0 <= i < |tokens[4]| ==> !IsLetter(tokens[4][i])
    ensures Substitute(ds, tokens) == tokens
  {
    StringToNumberWithoutLetters(tokens[3], ds.monthsMapper);
    StringToNumberWithoutLetters(tokens[4], ds.daysMapper);
  }

  lemma SignedDayLineHasNoLetters(s: string)
    requires s == "*" || s == "+3"
    ensures forall i :: 0 <= i < |s| ==> !IsLetter(s[i])
  {
  }

  /** Name substitution leaves the tokens of SignedDayLine alone. */
  lemma SubstituteSignedDayLine(ds: Syntax)
    requires Split(ds.input, Separator) == SignedDayLine
    requires KeysAreNames(ds.daysMapper) && KeysAreNames(ds.monthsMapper)
    ensures Substitute(ds, Split(ds.input, Separator)) == SignedDayLine
  {
    var tokens := Split(ds.input, Separator);
    SignedDayLineHasNoLetters(tokens[3]);
    SignedDayLineHasNoLetters(tokens[4]);
    SubstituteWithoutLetters(ds, tokens);
  }

  /** Tokenize passes once the first four substituted tokens are valid fields,
      whatever the day-of-week token holds, and stores that token unchecked. */
  lemma TokenizeSkipsDayOfWeek(ds: Syntax)
    requires |Split(ds.input, Separator)| == FieldsExpected
    requires var t := Substitute(ds, Split(ds.input, Separator));
      ValidField(t[0]) && ValidField(t[1]) && ValidField(t[2]) && ValidField(t[3])
    ensures Tokenize(ds).0.Pass?
    ensures Tokenize(ds).1.cronElements.value.dayWeek == Substitute(ds, Split(ds.input, Separator))[4]
  {
    var t := Substitute(ds, Split(ds.input, Separator));
    assert forall k :: 0 <= k < |t| - 2 ==> ValidField(t[k]) by {
      forall k | 0 <= k < |t| - 2 ensures ValidField(t[k]) {
        assert k == 0 || k == 1 || k == 2 || k == 3;
      }
    }
  }

  /** Tokenize accepts a line that splits into SignedDayLine, such as
      "* * * * +3 cmd", although its day-of-week token fails the pattern. */
  lemma DayOfWeekNeverChecked(ds: Syntax)
    requires Split(ds.input, Separator) == SignedDayLine
    requires KeysAreNames(ds.daysMapper) && KeysAreNames(ds.monthsMapper)
    ensures Tokenize(ds).0.Pass?
    ensures !ValidField(Tokenize(ds).1.cronElements.value.dayWeek)
  {
    SubstituteSignedDayLine(ds);
    var t := Substitute(ds, Split(ds.input, Separator));
    StarIsValidField(t[0]);
    StarIsValidField(t[1]);
    StarIsValidField(t[2]);
    StarIsValidField(t[3]);
    SignedNumberIsNotValidField(t[4]);
    TokenizeSkipsDayOfWeek(ds);
  }

  /** tokenize as evidently intended: every token except the command, the
      last, is checked. */
  function TokenizeChecked(ds: Syntax): (r: (Outcome, Syntax))
    requires |Split(ds.input, Separator)| == FieldsExpected
    ensures var t := Substitute(ds, Split(ds.input, Separator));
      r.0.Pass? <==> forall k :: 0 <= k < |t| - 1 ==> ValidField(t[k])
    ensures r.0.Pass? ==> r.1 == ds.(cronElements := Some(FromTokens(Substitute(ds, Split(ds.input, Separator)))))
    ensures r.0.Fail? ==> r.1 == ds
  {
    var tokens := Substitute(ds, Split(ds.input, Separator));
    var checked := tokens[..|tokens| - 1];
    assert forall k :: 0 <= k < |checked| ==> checked[k] == tokens[k];
    match ValidateAll(ds, checked)
    case Fail(e) => (Fail(e), ds)
    case Pass => (Pass, ds.(cronElements := Some(FromTokens(tokens))))
  }

  /** After the corrected tokenization every temporal field has passed the
      syntax check, day of week included. */
  lemma TokenizeCheckedFields(ds: Syntax)
    requires |Split(ds.input, Separator)| == FieldsExpected
    requires TokenizeChecked(ds).0.Pass?
    ensures var ce := TokenizeChecked(ds).1.cronElements.value;
      && ValidField(ce.minute) && ValidField(ce.hour) && ValidField(ce.dayMonth)
      && ValidField(ce.month) && ValidField(ce.dayWeek)
  {
    var t := Substitute(ds, Split(ds.input, Separator));
    assert ValidField(t[0]) && ValidField(t[1]) && ValidField(t[2]) && ValidField(t[3]) && ValidField(t[4]);
  }

  /** The corrected tokenization rejects the line the original lets through. */
  lemma TokenizeCheckedRejectsDayOfWeek(ds: Syntax)
    requires Split(ds.input, Separator) == SignedDayLine
    requires KeysAreNames(ds.daysMapper) && KeysAreNames(ds.monthsMapper)
    ensures TokenizeChecked(ds).0.Fail?
  {
    SubstituteSignedDayLine(ds);
    var t := Substitute(ds, Split(ds.input, Separator));
    SignedNumberIsNotValidField(t[4]);
  }

  // ---------------------------------------------------------------------------
  // Worked cases of the field check
  // ---------------------------------------------------------------------------

  /** A field without a comma is valid exactly when its one element matches. */
  lemma SingleElementField(s: string)
    requires ',' !in s && MatchesElement(s)
    ensures ValidField(s)
  {
    SplitAbsent(s, ',');
  }

  /** Comma-free matching elements joined by commas make a valid field. */
  lemma JoinedElementsField(es: seq<string>)
    requires |es| > 0
    requires forall k :: 0 <= k < |es| ==> ',' !in es[k] && MatchesElement(es[k])
    ensures ValidField(Join(es, ','))
  {
    SplitJoin(es, ',');
  }

  lemma NumberStarIntervalMatch()
    ensures MatchesElement("19") && MatchesElement("*") && MatchesElement("19-26") && MatchesElement("*/10")
  {
    assert IsNumeral("19");
    assert NumeralsAround("19-26", '-', 2);
    assert "*/10"[0] == '*' && "*/10"[1] == '/' && IsNumeral("*/10"[0 + 2..]);
  }

  /** Each form of the grammar matches the pattern. */
  lemma AcceptedElements()
    ensures MatchesElement("19") && MatchesElement("*") && MatchesElement("19-26") && MatchesElement("*/10")
    ensures MatchesElement("2/10") && MatchesElement("2-9/10") && MatchesElement("4-4")
  {
    NumberStarIntervalMatch();
    assert NumeralsAround("2/10", '/', 1);
    assert NumeralsAround("2-9/10"[..3], '-', 1) && IsNumeral("2-9/10"[4..]);
    assert NumeralsAround("4-4", '-', 1);
  }

  /** Fields of one element of each form are valid. */
  lemma AcceptedFields()
    ensures ValidField("19") && ValidField("*") && ValidField("19-26") && ValidField("*/10")
    ensures ValidField("2/10") && ValidField("2-9/10") && ValidField("4-4")
  {
    AcceptedElements();
    SingleElementField("19");
    SingleElementField("*");
    SingleElementField("19-26");
    SingleElementField("*/10");
    SingleElementField("2/10");
    SingleElementField("2-9/10");
    SingleElementField("4-4");
  }

  /** A list of several forms is valid. */
  lemma AcceptedList()
    ensures ValidField("19,*/10,2-9/10")
  {
    AcceptedElements();
    assert Join(["19", "*/10", "2-9/10"], ',') == "19,*/10,2-9/10";
    JoinedElementsField(["19", "*/10", "2-9/10"]);
  }

  lemma LetterRejected(s: string)
    requires s == "a"
    ensures !ValidField(s)
  {
    assert Split(s, ',') == [s];
    assert !IsNumeral(s) by { assert !IsDigit(s[0]); }
    assert !IsInterval(s) && !IsNumericStep(s) && !IsIntervalStep(s) && !EndsWithStarStep(s);
    assert !MatchesElement(s);
    assert s in Split(s, ',');
  }

  lemma NegativeRejected(s: string)
    requires s == "-4"
    ensures !ValidField(s)
  {
    assert Split(s, ',') == [s];
    assert !IsNumeral(s) by { assert !IsDigit(s[0]); }
    forall i | 0 <= i < |s|
      ensures !NumeralsAround(s, '-', i) && !NumeralsAround(s, '/', i)
    {
      if i > 0 { assert !IsNumeral(s[..i]) by { assert !IsDigit(s[..i][0]); } }
    }
    assert '/' !in s;
    assert !MatchesElement(s);
    assert s in Split(s, ',');
  }

  lemma StarIntervalRejected(s: string)
    requires s == "*-4"
    ensures !ValidField(s)
  {
    assert Split(s, ',') == [s];
    assert !IsNumeral(s) by { assert !IsDigit(s[0]); }
    forall i | 0 <= i < |s|
      ensures !NumeralsAround(s, '-', i) && !NumeralsAround(s, '/', i)
    {
      if i > 0 { assert !IsNumeral(s[..i]) by { assert !IsDigit(s[..i][0]); } }
    }
    assert '/' !in s;
    assert !MatchesElement(s);
    assert s in Split(s, ',');
  }

  lemma IntervalToStarRejected(s: string)
    requires s == "4-*"
    ensures !ValidField(s)
  {
    assert Split(s, ',') == [s];
    assert !IsNumeral(s) by { assert !IsDigit(s[1]); }
    forall i | 0 <= i < |s|
      ensures !NumeralsAround(s, '-', i) && !NumeralsAround(s, '/', i)
    {
      if i < 2 { assert !IsNumeral(s[i + 1..]) by { assert !IsDigit(s[2]); } }
    }
    assert '/' !in s;
    assert !MatchesElement(s);
    assert s in Split(s, ',');
  }

  lemma StepIntervalRejected(s: string)
    requires s == "4/4-6"
    ensures !ValidField(s)
  {
    assert Split(s, ',') == [s];
    assert !IsNumeral(s) by { assert !IsDigit(s[1]); }
    forall i | 0 <= i < |s|
      ensures !NumeralsAround(s, '-', i) && !NumeralsAround(s, '/', i)
    {
      if i == 3 { assert !IsNumeral(s[..i]) by { assert !IsDigit(s[1]); } }
      if i == 1 { assert !IsNumeral(s[i + 1..]) by { assert !IsDigit(s[3]); } }
    }
    forall j | 0 <= j < |s| && s[j] == '/'
      ensures !IsInterval(s[..j])
    {
      assert j == 1;
      assert '-' !in s[..j];
    }
    assert '*' !in s;
    assert !MatchesElement(s);
    assert s in Split(s, ',');
  }

  /** A line of five fields fails the count check. */
  lemma FiveFieldsRejected()
    ensures ValidateFields("1 2 3 4 5").Fail?
  {
    assert multiset("1 2 3 4 5")[' '] == 4;
  }

  // ---------------------------------------------------------------------------
  // A line the holder accepts
  // ---------------------------------------------------------------------------

  /** The tokens of a line the holder accepts: every fifteenth
      minute, hour 0, days 1 to 5, April, every seventh day from 1 to 3. */
  const AcceptedLine: seq<string> := ["*/15", "0", "1-5", "4", "1-3/7", "command"]

  lemma SplitAcceptedLine()
    ensures Split("*/15 0 1-5 4 1-3/7 command", Separator) == AcceptedLine
  {
    assert Join(AcceptedLine, Separator) == "*/15 0 1-5 4 1-3/7 command";
    SplitJoin(AcceptedLine, Separator);
  }

  lemma AcceptedLineFields()
    ensures ValidField("*/15") && ValidField("0") && ValidField("1-5") && ValidField("4")
  {
    assert "*/15"[0] == '*' && "*/15"[1] == '/' && IsNumeral("*/15"[0 + 2..]);
    assert IsNumeral("0") && IsNumeral("4");
    assert NumeralsAround("1-5", '-', 1);
    SingleElementField("*/15");
    SingleElementField("0");
    SingleElementField("1-5");
    SingleElementField("4");
  }

  lemma AcceptedLineHasNoLetters(s: string)
    requires s == "4" || s == "1-3/7"
    ensures forall i :: 0 <= i < |s| ==> !IsLetter(s[i])
  {
  }

  /** Name substitution leaves the tokens of AcceptedLine alone. */
  lemma SubstituteAcceptedLine(ds: Syntax)
    requires Split(ds.input, Separator) == AcceptedLine
    requires KeysAreNames(ds.daysMapper) && KeysAreNames(ds.monthsMapper)
    ensures Substitute(ds, Split(ds.input, Separator)) == AcceptedLine
  {
    var tokens := Split(ds.input, Separator);
    AcceptedLineHasNoLetters(tokens[3]);
    AcceptedLineHasNoLetters(tokens[4]);
    SubstituteWithoutLetters(ds, tokens);
  }

  /** A fresh holder whose line splits into AcceptedLine yields those six
      fields unchanged: the first four pass the syntax check and tokens 3 and
      4 hold no name to substitute. */
  lemma ElementsOfAcceptedTokens(ds: Syntax)
    requires ds.cronElements.None? && Split(ds.input, Separator) == AcceptedLine
    requires KeysAreNames(ds.daysMapper) && KeysAreNames(ds.monthsMapper)
    ensures Elements(ds).0 == Ok(CronElements("*/15", "0", "1-5", "4", "1-3/7", "command"))
  {
    SubstituteAcceptedLine(ds);
    AcceptedLineFields();
    var t := Substitute(ds, Split(ds.input, Separator));
    assert forall k :: 0 <= k < 4 ==> ValidField(t[k]) by {
      forall k | 0 <= k < 4 ensures ValidField(t[k]) {
        assert k == 0 || k == 1 || k == 2 || k == 3;
      }
    }
  }

  /** The holder built from the line of AcceptedLine yields its six fields. */
  lemma ElementsOfAcceptedLine(ds: Syntax)
    requires ds == NewDefaultSyntax("*/15 0 1-5 4 1-3/7 command")
    ensures Elements(ds).0 == Ok(CronElements("*/15", "0", "1-5", "4", "1-3/7", "command"))
  {
    SplitAcceptedLine();
    DefaultTablesHoldNames(ds.input);
    ElementsOfAcceptedTokens(ds);
  }
}

=== FILE: fields.dfy ===
/** The six fields of a cron line, shared by the expression holder, the
    validator and the parser. */
module Fields {
  import opened Outcomes
  import opened Text

  /** Fields are separated by exactly one space; a cron line has six of them. */
  const Separator: char := ' '
  const FieldsExpected: nat := 6

  /** The five temporal fields, in line order. */
  datatype FieldKind = Minute | Hour | DayOfMonth | Month | DayOfWeek

  /** The raw text of each field of a cron line. */
  datatype CronElements = CronElements(
    minute: string,
    hour: string,
    dayMonth: string,
    month: string,
    dayWeek: string,
    command: string)
  {
    /** The raw text of one temporal field. */
    function Get(kind: FieldKind): string {
      match kind
      case Minute => minute
      case Hour => hour
      case DayOfMonth => dayMonth
      case Month => month
      case DayOfWeek => dayWeek
    }

    /** The six fields in line order. */
    function Tokens(): seq<string> {
      [minute, hour, dayMonth, month, dayWeek, command]
    }
  }

  /** Tokens 0..5, in order, as the six fields. */
  function FromTokens(tokens: seq<string>): (ce: CronElements)
    requires |tokens| >= 6
    ensures ce.Tokens() == tokens[..6]
  {
    CronElements(tokens[0], tokens[1], tokens[2], tokens[3], tokens[4], tokens[5])
  }

  /** The field-count check both the holder and the validator perform: the line
      must split on single spaces into exactly six tokens, that is, hold
      exactly five spaces. */
  function CheckFieldCount(input: string): (r: Outcome)
    ensures r.Pass? <==> multiset(input)[Separator] == FieldsExpected - 1
    ensures r.Fail? ==> r.error == FieldCountError(|Split(input, Separator)|, FieldsExpected)
  {
    SplitCount(input, Separator);
    var tokens := Split(input, Separator);
    if |tokens| != FieldsExpected then Fail(FieldCountError(|tokens|, FieldsExpected)) else Pass
  }
}

=== FILE: outcomes.dfy ===
/** Failure-carrying return values. The Go code returns `(value, error)` pairs;
    here a result is either a value or an error, never both. */
module Outcomes {

  datatype Option<+T> = None | Some(value: T)

  /** The kinds of error the cron-field engine raises, each reduced to a kind
      and a few values. Some values are the model's own: the Go messages for a
      bad step and a reversed interval print neither the step text nor the
      bounds, the holder's name printed with a wrong field count is dropped,
      and the empty and endless expansions have no Go message, since the Go
      code panics or never returns there. */
  datatype Error =
    | FieldCountError(found: nat, expected: nat)
    | SyntaxError(text: string)
    | RangeOrderError(start: int, end: int)
    | OutOfRangeError(lo: int, hi: int)
    | EmptyFieldError(lo: int, hi: int)
    | EndlessStepError(text: string)

  /** A value or the error that prevented computing it. */
  datatype Result<+T> = Ok(value: T) | Err(error: Error)

  /** The outcome of a check that produces no value. */
  datatype Outcome = Pass | Fail(error: Error)
}

=== FILE: parsers.dfy ===
/** The default parser: expands each temporal field of a cron line into the
    integers it denotes, and checks them against the field's allowed range. */
module Parsers {
  import opened Outcomes
  import opened Text
  import opened Utils
  import opened Fields
  import opened Expressions

  /** The integers a field may take: every value from lo to hi. */
  datatype Allowed = Allowed(lo: int, hi: int)

  /** The ranges the default parser is built with; Sunday is day 0. */
  function AllowedValues(kind: FieldKind): (r: Allowed)
    ensures 0 <= r.lo < r.hi
  {
    match kind
    case Minute => Allowed(0, 59)
    case Hour => Allowed(0, 23)
    case DayOfMonth => Allowed(1, 31)
    case Month => Allowed(1, 12)
    case DayOfWeek => Allowed(0, 6)
  }

  /** The start and end of an interval or of a step progression. */
  datatype Bounds = Bounds(start: int, end: int)

  // ---------------------------------------------------------------------------
  // Intervals and steps
  // ---------------------------------------------------------------------------

  /** manageIntervals: both sides must be integers and the start must not
      exceed the end. */
  function ManageIntervals(interval: seq<string>): (r: Result<Bounds>)
    requires |interval| == 2
    ensures r.Ok? <==>
      Atoi(interval[0]).Some? && Atoi(interval[1]).Some? && Atoi(interval[0]).value <= Atoi(interval[1]).value
    ensures r.Ok? ==> r.value == Bounds(Atoi(interval[0]).value, Atoi(interval[1]).value)
    ensures Atoi(interval[0]).None? || Atoi(interval[1]).None? ==> r.Err? && r.error.SyntaxError?
    ensures Atoi(interval[0]).Some? && Atoi(interval[1]).Some? && r.Err? ==>
      r.error == RangeOrderError(Atoi(interval[0]).value, Atoi(interval[1]).value)
  {
    match (Atoi(interval[0]), Atoi(interval[1]))
    case (None, _) => Err(SyntaxError(Join(interval, '-')))
    case (_, None) => Err(SyntaxError(Join(interval, '-')))
    case (Some(start), Some(end)) =>
      if start > end then Err(RangeOrderError(start, end)) else Ok(Bounds(start, end))
  }

  /** Two numerals around a dash read back as their values, in order or not. */
  lemma ManageIntervalsOfNumbers(a: int, b: int)
    ensures ManageIntervals([FormatInt(a), FormatInt(b)]) ==
      if a <= b then Ok(Bounds(a, b)) else Err(RangeOrderError(a, b))
  {
    AtoiFormatInt(a);
    AtoiFormatInt(b);
  }

  /** The loop of manageSteps: start, start + step, ... while the value does
      not exceed end. It ends only when the step is positive or when there is
      nothing to emit. */
  function Progression(start: int, end: int, step: int): seq<int>
    requires step > 0 || start > end
    decreases if start <= end then end - start + 1 else 0
  {
    if start > end then [] else [start] + Progression(start + step, end, step)
  }

  lemma {:induction false} ProgressionShape(start: int, end: int, step: int)
    requires step > 0 || start > end
    ensures var r := Progression(start, end, step);
      && (|r| > 0 <==> start <= end)
      && (|r| > 0 ==> r[0] == start && r[|r| - 1] + step > end)
      && (forall i :: 0 <= i < |r| ==> start <= r[i] <= end)
      && (forall i :: 0 < i < |r| ==> r[i] - r[i - 1] == step)
    decreases if start <= end then end - start + 1 else 0
  {
    if start <= end {
      ProgressionShape(start + step, end, step);
      var rest := Progression(start + step, end, step);
      assert Progression(start, end, step) == [start] + rest;
      if |rest| > 0 {
        assert rest[0] == start + step;
      }
    }
  }

  /** The values manageSteps emits for the bounds start, end and the step: the
      progression from start, rising by the step, that stays within the bounds
      and cannot be extended. */
  function StepValues(start: int, end: int, step: int): (r: seq<int>)
    requires step > 0 || start > end
    ensures |r| > 0 <==> start <= end
    ensures |r| > 0 ==> r[0] == start && r[|r| - 1] + step > end
    ensures forall i :: 0 <= i < |r| ==> start <= r[i] <= end
    ensures forall i :: 0 < i < |r| ==> r[i] - r[i - 1] == step
  {
    ProgressionShape(start, end, step);
    Progression(start, end, step)
  }

  // Euclidean division facts the step proofs rely on.

  lemma {:induction false} MulAtLeast(b: int, k: int)
    requires b > 0 && k >= 1
    ensures b * k >= b
    decreases k
  {
    if k > 1 {
      MulAtLeast(b, k - 1);
      assert b * k == b * (k - 1) + b;
    }
  }
  lemma DivUnique(a: int, b: int, q: int, r: int)
    requires b > 0 && 0 <= r < b && a == b * q + r
    ensures a / b == q && a % b == r
  {
    var q0, r0 := a / b, a % b;
    assert a == b * q0 + r0;
    if q0 > q {
      MulAtLeast(b, q0 - q);
    } else if q0 < q {
      MulAtLeast(b, q - q0);
    }
  }
  lemma ModAddStep(y: int, step: int)
    requires step > 0
    ensures (y + step) % step == y % step
    ensures (y + step) / step == y / step + 1
  {
    var q, r := y / step, y % step;
    assert y == step * q + r;
    assert y + step == step * (q + 1) + r;
    DivUnique(y + step, step, q + 1, r);
  }
  lemma ModSmall(y: int, step: int)
    requires 0 <= y < step
    ensures y % step == y && y / step == 0
  {
    DivUnique(y, step, 0, y);
  }

  /** The i-th value emitted is start + i * step. */
  lemma {:induction false} ProgressionIndex(start: int, end: int, step: int)
    requires step > 0 || start > end
    ensures forall i :: 0 <= i < |Progression(start, end, step)| ==> Progression(start, end, step)[i] == start + i * step
    decreases if start <= end then end - start + 1 else 0
  {
    if start <= end {
      var rest := Progression(start + step, end, step);
      assert Progression(start, end, step) == [start] + rest;
      ProgressionIndex(start + step, end, step);
      forall i | 0 < i < |rest| + 1
        ensures ([start] + rest)[i] == start + i * step
      {
        assert ([start] + rest)[i] == rest[i - 1];
        assert rest[i - 1] == start + step + (i - 1) * step;
        assert (i - 1) * step + step == i * step;
      }
    }
  }

  /** The i-th value emitted is start + i * step. */
  lemma StepValuesIndex(start: int, end: int, step: int)
    requires step > 0 || start > end
    ensures forall i :: 0 <= i < |StepValues(start, end, step)| ==> StepValues(start, end, step)[i] == start + i * step
  {
    ProgressionIndex(start, end, step);
  }

  lemma {:induction false} ProgressionLength(start: int, end: int, step: int)
    requires step > 0
    ensures |Progression(start, end, step)| == if start <= end then (end - start) / step + 1 else 0
    decreases if start <= end then end - start + 1 else 0
  {
    if start <= end {
      ProgressionLength(start + step, end, step);
      var d := end - start;
      if start + step <= end {
        ModAddStep(d - step, step);
      } else {
        ModSmall(d, step);
      }
    }
  }

  /** The number of values emitted: one more than the whole steps that fit
      between start and end. */
  lemma StepValuesLength(start: int, end: int, step: int)
    requires step > 0
    ensures |StepValues(start, end, step)| == if start <= end then (end - start) / step + 1 else 0
  {
    ProgressionLength(start, end, step);
  }

  lemma {:induction false} ProgressionMember(x: int, start: int, end: int, step: int)
    requires step > 0
    ensures x in Progression(start, end, step) <==> start <= x <= end && (x - start) % step == 0
    decreases if start <= end then end - start + 1 else 0
  {
    ProgressionShape(start, end, step);
    if start <= end {
      var rest := Progression(start + step, end, step);
      assert Progression(start, end, step) == [start] + rest;
      ProgressionMember(x, start + step, end, step);
      ProgressionShape(start + step, end, step);
      var a := x - start;
      var b := x - (start + step);
      assert b + step == a;
      ModAddStep(b, step);
      assert (x - start) % step == b % step;
      if start <= x < start + step {
        ModSmall(a, step);
        assert x !in rest;
      }
    }
  }

  /** A value is emitted exactly when it lies between start and end and is a
      whole number of steps past start. */
  lemma StepValuesMembers(start: int, end: int, step: int)
    requires step > 0
    ensures forall x :: x in StepValues(start, end, step) <==> start <= x <= end && (x - start) % step == 0
  {
    forall x
      ensures x in StepValues(start, end, step) <==> start <= x <= end && (x - start) % step == 0
    {
      ProgressionMember(x, start, end, step);
    }
  }

  /** The bounds of a step progression, from the text before the slash: an
      interval gives its own bounds; any other text except `*` gives its first
      dash-separated piece as the start and the allowed maximum as the end;
      `*` gives the allowed range. */
  function StepBase(base: string, allowed: Allowed): (r: Result<Bounds>)
    ensures r.Ok? && base != "*" && |Split(base, '-')| != 2 ==> r.value.end == allowed.hi
    ensures r.Err? ==> r.error.SyntaxError? || r.error.RangeOrderError?
  {
    var interval := Split(base, '-');
    if |interval| == 2 then ManageIntervals(interval)
    else if base != "*" then
      match Atoi(interval[0])
      case None => Err(SyntaxError(base))
      case Some(n) => Ok(Bounds(n, allowed.hi))
    else Ok(Bounds(allowed.lo, allowed.hi))
  }

  /** The three kinds of base: `*`, a number, and an interval of numbers. */
  lemma StepBaseCases(allowed: Allowed, a: nat, b: nat)
    ensures StepBase("*", allowed) == Ok(Bounds(allowed.lo, allowed.hi))
    ensures StepBase(FormatNat(a), allowed) == Ok(Bounds(a, allowed.hi))
    ensures StepBase(FormatNat(a) + "-" + FormatNat(b), allowed) ==
      if a <= b then Ok(Bounds(a, b)) else Err(RangeOrderError(a, b))
  {
    assert Split("*", '-') == ["*"];
    NumeralLacks(FormatNat(a), '-');
    SplitAbsent(FormatNat(a), '-');
    DigitsValueFormatNat(a);
    NumeralDashNumeral(a, b);
    ManageIntervalsOfNumbers(a, b);
  }

  /** The text a-b splits on its dash into the two numerals. */
  lemma NumeralDashNumeral(a: nat, b: nat)
    ensures Split(FormatNat(a) + "-" + FormatNat(b), '-') == [FormatInt(a), FormatInt(b)]
  {
    NumeralLacks(FormatNat(a), '-');
    NumeralLacks(FormatNat(b), '-');
    SplitConcat(FormatNat(a), FormatNat(b), '-');
    SplitAbsent(FormatNat(a), '-');
    SplitAbsent(FormatNat(b), '-');
  }

  /** The step loop of a `base/step` element ends: the step is positive or the
      bounds leave nothing to emit. Texts that fail to parse end at once. */
  predicate StepHalts(input: seq<string>, allowed: Allowed)
    requires |input| == 2
  {
    match (Atoi(input[1]), StepBase(input[0], allowed))
    case (Some(step), Ok(b)) => step > 0 || b.start > b.end
    case _ => true
  }

  /** manageSteps: the step is read first, then the base; the values are the
      progression from the base's start, by the step, up to its end. */
  function ManageSteps(input: seq<string>, allowed: Allowed): (r: Result<seq<int>>)
    requires |input| == 2 && StepHalts(input, allowed)
    ensures r.Ok? <==> Atoi(input[1]).Some? && StepBase(input[0], allowed).Ok?
    ensures Atoi(input[1]).None? ==> r == Err(SyntaxError(input[1]))
    ensures r.Ok? ==> var b := StepBase(input[0], allowed).value;
      forall x :: x in r.value ==> b.start <= x <= b.end
    ensures r.Ok? ==> forall i :: 0 < i < |r.value| ==> r.value[i] - r.value[i - 1] == Atoi(input[1]).value
    ensures r.Ok? ==> var b := StepBase(input[0], allowed).value;
      && (|r.value| > 0 <==> b.start <= b.end)
      && (|r.value| > 0 ==> r.value[0] == b.start && r.value[|r.value| - 1] + Atoi(input[1]).value > b.end)
    ensures r.Ok? ==> var b := StepBase(input[0], allowed).value;
      r.value == StepValues(b.start, b.end, Atoi(input[1]).value)
  {
    match Atoi(input[1])
    case None => Err(SyntaxError(input[1]))
    case Some(step) =>
      match StepBase(input[0], allowed)
      case Err(e) => Err(e)
      case Ok(b) => Ok(StepValues(b.start, b.end, step))
  }

  // ---------------------------------------------------------------------------
  // Elements and fields
  // ---------------------------------------------------------------------------

  /** Expanding the element ends: only a step element can loop. */
  predicate ElementHalts(v: string, allowed: Allowed) {
    var steps := Split(v, '/');
    |steps| == 2 ==> StepHalts(steps, allowed)
  }

  /** The values of one element other than `*`: a step element if it has one
      slash, otherwise an interval if it has one dash, otherwise an integer. */
  function ElementValues(v: string, allowed: Allowed): (r: Result<seq<int>>)
    requires ElementHalts(v, allowed)
    ensures r.Err? ==> r.error.SyntaxError? || r.error.RangeOrderError?
  {
    var steps := Split(v, '/');
    if |steps| == 2 then ManageSteps(steps, allowed)
    else
      var interval := Split(v, '-');
      if |interval| == 2 then
        match ManageIntervals(interval)
        case Err(e) => Err(e)
        case Ok(b) => Ok(RangeValues(b.start, b.end))
      else
        match Atoi(v)
        case None => Err(SyntaxError(v))
        case Some(n) => Ok([n])
  }

  /** An element with neither one slash nor one dash is a single value: it
      expands to itself when it is an integer and is a syntax error naming the
      element otherwise. */
  lemma ElementSingleValue(v: string, allowed: Allowed)
    requires |Split(v, '/')| != 2 && |Split(v, '-')| != 2
    ensures ElementHalts(v, allowed)
    ensures ElementValues(v, allowed).Ok? <==> Atoi(v).Some?
    ensures Atoi(v).Some? ==> ElementValues(v, allowed) == Ok([Atoi(v).value])
    ensures Atoi(v).None? ==> ElementValues(v, allowed) == Err(SyntaxError(v))
  {
  }

  /** An element that is not `*` and expands without error. */
  predicate ElementOk(v: string, allowed: Allowed) {
    v != "*" && ElementHalts(v, allowed) && ElementValues(v, allowed).Ok?
  }

  /** Expanding the elements ends: every element up to the first `*` or the
      first error ends. Elements after that are never looked at. */
  predicate ParseHalts(es: seq<string>, allowed: Allowed)
    decreases |es|
  {
    || |es| == 0
    || es[0] == "*"
    || (ElementHalts(es[0], allowed) && (ElementValues(es[0], allowed).Ok? ==> ParseHalts(es[1..], allowed)))
  }

  /** Parsing the field ends. */
  predicate FieldHalts(input: string, allowed: Allowed) {
    ParseHalts(Split(input, ','), allowed)
  }

  /** The loop of parse: appends each element's values to acc; a `*` discards
      everything and yields the allowed range; the first error ends it. */
  function ParseElements(es: seq<string>, allowed: Allowed, acc: seq<int>): (r: Result<seq<int>>)
    requires ParseHalts(es, allowed)
    ensures r.Err? ==> r.error.SyntaxError? || r.error.RangeOrderError?
    ensures r.Ok? && "*" !in es ==> acc <= r.value
    ensures r.Ok? && "*" in es ==> r.value == RangeValues(allowed.lo, allowed.hi)
    decreases |es|
  {
    if |es| == 0 then Ok(acc)
    else if es[0] == "*" then Ok(RangeValues(allowed.lo, allowed.hi))
    else
      match ElementValues(es[0], allowed)
      case Err(e) => Err(e)
      case Ok(vs) => ParseElements(es[1..], allowed, acc + vs)
  }

  /** parse: the values of a field, element by element, in element order. */
  function Parse(input: string, allowed: Allowed): (r: Result<seq<int>>)
    requires FieldHalts(input, allowed)
    ensures r.Err? ==> r.error.SyntaxError? || r.error.RangeOrderError?
  {
    ParseElements(Split(input, ','), allowed, [])
  }

  // ---------------------------------------------------------------------------
  // What parse computes
  // ---------------------------------------------------------------------------

  /** Every element is not `*` and expands without error. */
  predicate AllOk(es: seq<string>, allowed: Allowed)
    decreases |es|
  {
    |es| == 0 || (ElementOk(es[0], allowed) && AllOk(es[1..], allowed))
  }

  /** The values of star-free, error-free elements, one element after another. */
  function ConcatValues(es: seq<string>, allowed: Allowed): seq<int>
    requires AllOk(es, allowed)
    decreases |es|
  {
    if |es| == 0 then [] else ElementValues(es[0], allowed).value + ConcatValues(es[1..], allowed)
  }

  /** Every text of es satisfies ok. */
  predicate AllHold(es: seq<string>, ok: string -> bool)
    decreases |es|
  {
    |es| == 0 || (ok(es[0]) && AllHold(es[1..], ok))
  }

  lemma {:induction false} AllHoldAppend(p: seq<string>, q: seq<string>, ok: string -> bool)
    requires AllHold(p, ok) && AllHold(q, ok)
    ensures AllHold(p + q, ok)
    decreases |p|
  {
    if |p| > 0 {
      assert (p + q)[1..] == p[1..] + q;
      assert (p + q)[0] == p[0];
      AllHoldAppend(p[1..], q, ok);
    } else {
      assert p + q == q;
    }
  }

  lemma {:induction false} AllOkHolds(es: seq<string>, allowed: Allowed)
    ensures AllOk(es, allowed) == AllHold(es, v => ElementOk(v, allowed))
    decreases |es|
  {
    if |es| > 0 {
      AllOkHolds(es[1..], allowed);
    }
  }

  lemma AllOkAppend(p: seq<string>, q: seq<string>, allowed: Allowed)
    requires AllOk(p, allowed) && AllOk(q, allowed)
    ensures AllOk(p + q, allowed)
  {
    AllOkHolds(p, allowed);
    AllOkHolds(q, allowed);
    AllOkHolds(p + q, allowed);
    AllHoldAppend(p, q, v => ElementOk(v, allowed));
  }

  /** The texts' values under vals, one text after another. */
  function ConcatWith(es: seq<string>, vals: string -> seq<int>): seq<int>
    decreases |es|
  {
    if |es| == 0 then [] else vals(es[0]) + ConcatWith(es[1..], vals)
  }

  lemma {:induction false} ConcatWithAppend(p: seq<string>, q: seq<string>, vals: string -> seq<int>)
    ensures ConcatWith(p + q, vals) == ConcatWith(p, vals) + ConcatWith(q, vals)
    decreases |p|
  {
    if |p| > 0 {
      assert (p + q)[1..] == p[1..] + q;
      assert (p + q)[0] == p[0];
      ConcatWithAppend(p[1..], q, vals);
    } else {
      assert p + q == q;
    }
  }

  /** The values of an element that expands without error, and none otherwise. */
  function OkValues(v: string, allowed: Allowed): seq<int> {
    if ElementOk(v, allowed) then ElementValues(v, allowed).value else []
  }

  lemma {:induction false} ConcatValuesWith(es: seq<string>, allowed: Allowed)
    requires AllOk(es, allowed)
    ensures ConcatValues(es, allowed) == ConcatWith(es, v => OkValues(v, allowed))
    decreases |es|
  {
    if |es| > 0 {
      ConcatValuesWith(es[1..], allowed);
    }
  }

  lemma ConcatValuesAppend(p: seq<string>, q: seq<string>, allowed: Allowed)
    requires AllOk(p, allowed) && AllOk(q, allowed)
    ensures AllOk(p + q, allowed)
    ensures ConcatValues(p + q, allowed) == ConcatValues(p, allowed) + ConcatValues(q, allowed)
  {
    AllOkAppend(p, q, allowed);
    ConcatValuesWith(p, allowed);
    ConcatValuesWith(q, allowed);
    ConcatValuesWith(p + q, allowed);
    ConcatWithAppend(p, q, v => OkValues(v, allowed));
  }

  lemma {:induction false} ParseElementsOk(es: seq<string>, allowed: Allowed, acc: seq<int>)
    requires AllOk(es, allowed)
    ensures ParseHalts(es, allowed)
    ensures ParseElements(es, allowed, acc) == Ok(acc + ConcatValues(es, allowed))
    decreases |es|
  {
    if |es| > 0 {
      assert ElementOk(es[0], allowed) && AllOk(es[1..], allowed);
      var vs := ElementValues(es[0], allowed).value;
      var rest := ConcatValues(es[1..], allowed);
      ParseElementsOk(es[1..], allowed, acc + vs);
      assert ConcatValues(es, allowed) == vs + rest;
      assert ParseElements(es, allowed, acc) == ParseElements(es[1..], allowed, acc + vs);
      assert acc + (vs + rest) == (acc + vs) + rest;
    } else {
      assert acc + [] == acc;
    }
  }

  /** Without `*` and errors, parse concatenates the values of the elements in
      element order, neither sorting nor removing duplicates. */
  lemma ParseConcatenates(input: string, allowed: Allowed)
    requires AllOk(Split(input, ','), allowed)
    ensures FieldHalts(input, allowed)
    ensures Parse(input, allowed) == Ok(ConcatValues(Split(input, ','), allowed))
  {
    var es := Split(input, ',');
    ParseElementsOk(es, allowed, []);
    assert [] + ConcatValues(es, allowed) == ConcatValues(es, allowed);
  }

  /** Two star-free, error-free fields joined by a comma parse to the values of
      the first followed by those of the second. */
  lemma ParseJoined(a: string, b: string, allowed: Allowed)
    requires AllOk(Split(a, ','), allowed) && AllOk(Split(b, ','), allowed)
    ensures FieldHalts(a, allowed) && FieldHalts(b, allowed) && FieldHalts(a + "," + b, allowed)
    ensures Parse(a, allowed).Ok? && Parse(b, allowed).Ok? &&
      Parse(a + "," + b, allowed) == Ok(Parse(a, allowed).value + Parse(b, allowed).value)
  {
    SplitConcat(a, b, ',');
    ConcatValuesAppend(Split(a, ','), Split(b, ','), allowed);
    ParseConcatenates(a, allowed);
    ParseConcatenates(b, allowed);
    ParseConcatenates(a + "," + b, allowed);
  }

  lemma {:induction false} ParseElementsStar(es: seq<string>, allowed: Allowed, acc: seq<int>, i: nat)
    requires i < |es| && es[i] == "*"
    requires forall j :: 0 <= j < i ==> ElementOk(es[j], allowed)
    ensures ParseHalts(es, allowed)
    ensures ParseElements(es, allowed, acc) == Ok(RangeValues(allowed.lo, allowed.hi))
    decreases i
  {
    if i > 0 {
      assert ElementOk(es[0], allowed);
      ParseElementsStar(es[1..], allowed, acc + ElementValues(es[0], allowed).value, i - 1);
    }
  }

  /** A `*` element makes parse return the whole allowed range, dropping the
      values of the elements before it and never looking at those after it,
      provided the elements before it expand without error. */
  lemma ParseStarAbsorbs(input: string, allowed: Allowed, i: nat)
    requires i < |Split(input, ',')| && Split(input, ',')[i] == "*"
    requires forall j :: 0 <= j < i ==> ElementOk(Split(input, ',')[j], allowed)
    ensures FieldHalts(input, allowed)
    ensures Parse(input, allowed) == Ok(RangeValues(allowed.lo, allowed.hi))
  {
    ParseElementsStar(Split(input, ','), allowed, [], i);
  }

  lemma {:induction false} ParseElementsError(es: seq<string>, allowed: Allowed, acc: seq<int>, i: nat)
    requires i < |es| && es[i] != "*" && ElementHalts(es[i], allowed) && ElementValues(es[i], allowed).Err?
    requires forall j :: 0 <= j < i ==> ElementOk(es[j], allowed)
    ensures ParseHalts(es, allowed)
    ensures ParseElements(es, allowed, acc) == Err(ElementValues(es[i], allowed).error)
    decreases i
  {
    if i > 0 {
      assert ElementOk(es[0], allowed);
      ParseElementsError(es[1..], allowed, acc + ElementValues(es[0], allowed).value, i - 1);
    }
  }

  /** The first element that fails to expand decides the error, even when a
      `*` follows it. */
  lemma ParseFirstError(input: string, allowed: Allowed, i: nat)
    requires i < |Split(input, ',')|
    requires var v := Split(input, ',')[i];
      v != "*" && ElementHalts(v, allowed) && ElementValues(v, allowed).Err?
    requires forall j :: 0 <= j < i ==> ElementOk(Split(input, ',')[j], allowed)
    ensures FieldHalts(input, allowed)
    ensures Parse(input, allowed) == Err(ElementValues(Split(input, ',')[i], allowed).error)
  {
    ParseElementsError(Split(input, ','), allowed, [], i);
  }

  // ---------------------------------------------------------------------------
  // The element forms
  // ---------------------------------------------------------------------------

  /** A number expands to itself. */
  lemma ElementNumber(a: nat, allowed: Allowed)
    ensures ElementHalts(FormatNat(a), allowed)
    ensures ElementValues(FormatNat(a), allowed) == Ok([a])
  {
    var v := FormatNat(a);
    NumeralLacks(v, '/');
    NumeralLacks(v, '-');
    SplitAbsent(v, '/');
    SplitAbsent(v, '-');
    DigitsValueFormatNat(a);
  }

  /** a-b expands to every value from a to b, and is an error when a > b. */
  lemma ElementInterval(a: nat, b: nat, allowed: Allowed)
    ensures ElementHalts(FormatNat(a) + "-" + FormatNat(b), allowed)
    ensures ElementValues(FormatNat(a) + "-" + FormatNat(b), allowed) ==
      if a <= b then Ok(RangeValues(a, b)) else Err(RangeOrderError(a, b))
  {
    var v := FormatNat(a) + "-" + FormatNat(b);
    NumeralLacks(FormatNat(a), '/');
    NumeralLacks(FormatNat(b), '/');
    assert '/' !in v;
    SplitAbsent(v, '/');
    NumeralDashNumeral(a, b);
    ManageIntervalsOfNumbers(a, b);
  }

  /** The text `base/step` splits on its slash when the base has none. */
  lemma SlashSplit(base: string, st: nat)
    requires '/' !in base
    ensures Split(base + "/" + FormatNat(st), '/') == [base, FormatInt(st)]
  {
    NumeralLacks(FormatNat(st), '/');
    SplitConcat(base, FormatNat(st), '/');
    SplitAbsent(base, '/');
    SplitAbsent(FormatNat(st), '/');
  }

  /** A `base/step` element with a positive step expands by its base. */
  lemma StepElement(v: string, base: string, st: nat, allowed: Allowed)
    requires st > 0 && Split(v, '/') == [base, FormatInt(st)]
    ensures ElementHalts(v, allowed)
    ensures StepBase(base, allowed).Ok? ==> var b := StepBase(base, allowed).value;
      ElementValues(v, allowed) == Ok(StepValues(b.start, b.end, st))
    ensures StepBase(base, allowed).Err? ==> ElementValues(v, allowed) == Err(StepBase(base, allowed).error)
  {
    AtoiFormatInt(st);
  }

  /** `*` / step expands to the progression over the whole allowed range. */
  lemma ElementStarStep(st: nat, allowed: Allowed)
    requires st > 0
    ensures ElementHalts("*/" + FormatNat(st), allowed)
    ensures ElementValues("*/" + FormatNat(st), allowed) == Ok(StepValues(allowed.lo, allowed.hi, st))
  {
    var v := "*/" + FormatNat(st);
    assert v == "*" + "/" + FormatNat(st);
    SlashSplit("*", st);
    StepBaseCases(allowed, 0, 0);
    StepElement(v, "*", st, allowed);
  }

  /** a / step expands to the progression from a up to the allowed maximum. */
  lemma ElementNumberStep(a: nat, st: nat, allowed: Allowed)
    requires st > 0
    ensures ElementHalts(FormatNat(a) + "/" + FormatNat(st), allowed)
    ensures ElementValues(FormatNat(a) + "/" + FormatNat(st), allowed) == Ok(StepValues(a, allowed.hi, st))
  {
    NumeralLacks(FormatNat(a), '/');
    SlashSplit(FormatNat(a), st);
    StepBaseCases(allowed, a, 0);
    StepElement(FormatNat(a) + "/" + FormatNat(st), FormatNat(a), st, allowed);
  }

  /** a-b / step expands to the progression from a up to b, and is an error
      when a > b. */
  lemma ElementIntervalStep(a: nat, b: nat, st: nat, allowed: Allowed)
    requires st > 0
    ensures ElementHalts(FormatNat(a) + "-" + FormatNat(b) + "/" + FormatNat(st), allowed)
    ensures ElementValues(FormatNat(a) + "-" + FormatNat(b) + "/" + FormatNat(st), allowed) ==
      if a <= b then Ok(StepValues(a, b, st)) else Err(RangeOrderError(a, b))
  {
    var base := FormatNat(a) + "-" + FormatNat(b);
    NumeralLacks(FormatNat(a), '/');
    NumeralLacks(FormatNat(b), '/');
    assert '/' !in base;
    SlashSplit(base, st);
    StepBaseCases(allowed, a, b);
    StepElement(base + "/" + FormatNat(st), base, st, allowed);
  }

  /** A field of one element: `*` gives the allowed range, anything else the
      values of that element. */
  lemma ParseOneElement(v: string, allowed: Allowed)
    requires ',' !in v
    requires v == "*" || ElementHalts(v, allowed)
    ensures FieldHalts(v, allowed)
    ensures Parse(v, allowed) ==
      if v == "*" then Ok(RangeValues(allowed.lo, allowed.hi)) else ElementValues(v, allowed)
  {
    SplitAbsent(v, ',');
    if v != "*" {
      match ElementValues(v, allowed)
      case Err(_) =>
      case Ok(vs) =>
        assert [v][1..] == [];
        assert ParseElements([v], allowed, []) == ParseElements([], allowed, [] + vs);
        assert [] + vs == vs;
    }
  }

  // ---------------------------------------------------------------------------
  // The grammar and the expander
  // ---------------------------------------------------------------------------

  /** An interval splits on its dash into its two numerals. */
  lemma IntervalSplit(t: string)
    requires IsInterval(t)
    ensures var parts := Split(t, '-');
      |parts| == 2 && Atoi(parts[0]).Some? && Atoi(parts[1]).Some?
  {
    var i :| 0 <= i < |t| && NumeralsAround(t, '-', i);
    NumeralLacks(t[..i], '-');
    NumeralLacks(t[i + 1..], '-');
    SplitAt(t, '-', i);
  }

  /** The bounds of a base in the grammar: a number, `*` or an interval. */
  lemma GrammarBase(base: string, allowed: Allowed)
    requires IsNumeral(base) || base == "*" || IsInterval(base)
    ensures StepBase(base, allowed).Ok? || StepBase(base, allowed).error.RangeOrderError?
  {
    if IsNumeral(base) {
      NumeralLacks(base, '-');
      SplitAbsent(base, '-');
      assert base[0] != '*';
    } else if base == "*" {
      StepBaseCases(allowed, 0, 0);
    } else {
      IntervalSplit(base);
    }
  }

  /** A step element of the grammar, split at its slash. */
  lemma GrammarStep(v: string, j: nat, allowed: Allowed)
    requires j < |v| && v[j] == '/' && IsNumeral(v[j + 1..])
    requires IsNumeral(v[..j]) || v[..j] == "*" || IsInterval(v[..j])
    requires ElementHalts(v, allowed)
    ensures ElementValues(v, allowed).Ok? || ElementValues(v, allowed).error.RangeOrderError?
  {
    var base := v[..j];
    if IsNumeral(base) {
      NumeralLacks(base, '/');
    } else if IsInterval(base) {
      IntervalLacks(base, '/');
    }
    NumeralLacks(v[j + 1..], '/');
    SplitAt(v, '/', j);
    GrammarBase(base, allowed);
  }

  /** Every element of the documented grammar other than `*` expands to values
      or, for a reversed interval, to an order error: never a syntax error. */
  lemma GrammarElementExpands(v: string, allowed: Allowed)
    requires InGrammar(v) && v != "*" && ElementHalts(v, allowed)
    ensures ElementValues(v, allowed).Ok? || ElementValues(v, allowed).error.RangeOrderError?
  {
    if IsNumeral(v) {
      NumeralLacks(v, '/');
      NumeralLacks(v, '-');
      SplitAbsent(v, '/');
      SplitAbsent(v, '-');
    } else if IsInterval(v) {
      IntervalLacks(v, '/');
      SplitAbsent(v, '/');
      IntervalSplit(v);
    } else if IsStarStep(v) {
      assert v[..1] == "*";
      GrammarStep(v, 1, allowed);
    } else if IsNumericStep(v) {
      var i :| 0 <= i < |v| && NumeralsAround(v, '/', i);
      GrammarStep(v, i, allowed);
    } else {
      var j :| 0 <= j < |v| && v[j] == '/' && IsInterval(v[..j]) && IsNumeral(v[j + 1..]);
      GrammarStep(v, j, allowed);
    }
  }

  /** Beyond the grammar, the pattern lets through texts that end in `*`, `/`
      and a number. When the text before the star holds no slash and no dash,
      the expander rejects it with a syntax error naming the text before the
      slash. Other prefixes fare differently: see MalformedStepExpands. */
  lemma UnanchoredStepRejected(p: string, st: nat, allowed: Allowed)
    requires |p| > 0 && '/' !in p && '-' !in p
    ensures MatchesElement(p + "*/" + FormatNat(st))
    ensures ElementHalts(p + "*/" + FormatNat(st), allowed)
    ensures ElementValues(p + "*/" + FormatNat(st), allowed) == Err(SyntaxError(p + "*"))
  {
    UnanchoredMatches(p, st);
    UnanchoredFails(p, st, allowed);
  }

  lemma UnanchoredMatches(p: string, st: nat)
    ensures MatchesElement(p + "*/" + FormatNat(st))
  {
    var v := p + "*/" + FormatNat(st);
    assert v[|p|] == '*' && v[|p| + 1] == '/' && v[|p| + 2..] == FormatNat(st);
  }

  lemma UnanchoredFails(p: string, st: nat, allowed: Allowed)
    requires |p| > 0 && '/' !in p && '-' !in p
    ensures ElementHalts(p + "*/" + FormatNat(st), allowed)
    ensures ElementValues(p + "*/" + FormatNat(st), allowed) == Err(SyntaxError(p + "*"))
  {
    var base := p + "*";
    assert p + "*/" + FormatNat(st) == base + "/" + FormatNat(st);
    assert '/' !in base && '-' !in base;
    SlashSplit(base, st);
    StarEndingBase(base, allowed);
    AtoiFormatInt(st);
  }

  /** The element 5-5-* followed by /10 also passes the pattern only through
      its unanchored alternative, yet the expander accepts it: the base 5-5-*
      splits on its dashes into three pieces, so it is read as a single start,
      its first piece. As a minutes field it thus means 5/10. */
  lemma MalformedStepExpands(v: string)
    requires v == "5-5-*/10"
    ensures MatchesElement(v) && !InGrammar(v)
    ensures ElementHalts(v, AllowedValues(Minute))
    ensures ElementValues(v, AllowedValues(Minute)) == Ok(StepValues(5, 59, 10))
  {
    MalformedStepOutsideGrammar(v);
    var base := "5-5-*";
    assert FormatNat(10) == "10";
    assert v == base + "/" + FormatNat(10);
    SlashSplit(base, 10);
    MalformedStepBase(base, AllowedValues(Minute));
    StepElement(v, base, 10, AllowedValues(Minute));
  }

  lemma MalformedStepOutsideGrammar(v: string)
    requires v == "5-5-*/10"
    ensures MatchesElement(v) && !InGrammar(v)
  {
    assert FormatNat(10) == "10";
    assert v == "5-5-" + "*/" + FormatNat(10);
    UnanchoredMatches("5-5-", 10);
    assert v[4] == '*' && v[5] == '/' && IsNumeral(v[4 + 2..]);
    assert !IsStarStep(v);
    AnchoredPattern(v);
  }

  /** The base 5-5-* is read as the start 5, running to the allowed maximum. */
  lemma MalformedStepBase(base: string, allowed: Allowed)
    requires base == "5-5-*"
    ensures StepBase(base, allowed) == Ok(Bounds(5, allowed.hi))
  {
    MalformedBasePieces(base);
    var pieces := Split(base, '-');
    assert Atoi(pieces[0]) == Some(5) by { AtoiFormatInt(5); assert FormatInt(5) == "5"; }
    assert |pieces| != 2 && base != "*";
  }

  lemma MalformedBasePieces(base: string)
    requires base == "5-5-*"
    ensures Split(base, '-') == ["5", "5", "*"]
  {
    var parts := ["5", "5", "*"];
    assert Join(parts[2..], '-') == "*";
    assert Join(parts[1..], '-') == "5-*";
    assert Join(parts, '-') == base;
    SplitJoin(parts, '-');
  }

  /** A base that ends in `*` but is not `*` is not a number. */
  lemma StarEndingBase(base: string, allowed: Allowed)
    requires |base| > 1 && base[|base| - 1] == '*' && '-' !in base
    ensures StepBase(base, allowed) == Err(SyntaxError(base))
  {
    SplitAbsent(base, '-');
    assert base != "*";
    assert !IsDigit(base[|base| - 1]);
    assert !IsNumeral(base[1..]) by { assert base[1..][|base| - 2] == '*'; }
  }

  // ---------------------------------------------------------------------------
  // The range check
  // ---------------------------------------------------------------------------

  /** inAllowedValues: the first value is not below the minimum and the last
      is not above the maximum. The list must not be empty. It never rejects a
      list whose values all lie in the range. */
  function InAllowedValues(input: seq<int>, allowed: Allowed): (b: bool)
    requires |input| > 0
    ensures (forall x :: x in input ==> allowed.lo <= x <= allowed.hi) ==> b
  {
    assert input[0] in input && input[|input| - 1] in input;
    if input[0] < allowed.lo then false else input[|input| - 1] <= allowed.hi
  }

  /** On an ascending list, checking the ends checks every value. */
  lemma InAllowedValuesAscending(input: seq<int>, allowed: Allowed)
    requires |input| > 0 && Ascending(input)
    ensures InAllowedValues(input, allowed) <==> forall x :: x in input ==> allowed.lo <= x <= allowed.hi
  {
    if InAllowedValues(input, allowed) {
      forall x | x in input ensures allowed.lo <= x <= allowed.hi {
        var i :| 0 <= i < |input| && input[i] == x;
        assert input[0] <= x <= input[|input| - 1];
      }
    } else {
      assert input[0] in input && input[|input| - 1] in input;
    }
  }

  /** On an unsorted list the check looks at the wrong values: [5, 70, 10]
      passes for the range 0..59. */
  lemma InAllowedValuesNeedsOrder()
    ensures InAllowedValues([5, 70, 10], Allowed(0, 59))
    ensures 70 in [5, 70, 10] && !(0 <= 70 <= 59)
  {
  }

  // ---------------------------------------------------------------------------
  // The parser and its result cache
  // ---------------------------------------------------------------------------

  /** The cached results: a field's list is empty until an accessor fills it;
      an empty command is likewise unset. */
  datatype CronResults = CronResults(
    minute: seq<int>,
    hour: seq<int>,
    dayMonth: seq<int>,
    month: seq<int>,
    dayWeek: seq<int>,
    command: string)
  {
    function Get(kind: FieldKind): seq<int> {
      match kind
      case Minute => minute
      case Hour => hour
      case DayOfMonth => dayMonth
      case Month => month
      case DayOfWeek => dayWeek
    }

    /** This cache with one field's list replaced. */
    function Set(kind: FieldKind, vs: seq<int>): (r: CronResults)
      ensures r.Get(kind) == vs
      ensures forall other :: other != kind ==> r.Get(other) == Get(other)
      ensures r.command == command
    {
      match kind
      case Minute => this.(minute := vs)
      case Hour => this.(hour := vs)
      case DayOfMonth => this.(dayMonth := vs)
      case Month => this.(month := vs)
      case DayOfWeek => this.(dayWeek := vs)
    }
  }

  const NoResults: CronResults := CronResults([], [], [], [], [], "")

  /** The parser: the fields of the line and the results computed so far. */
  datatype DefaultParser = DefaultParser(cronElements: CronElements, results: CronResults)

  /** NewDefaultParser: asks the holder for its fields and fails with the
      holder's error. The holder's new state is returned alongside. */
  function NewDefaultParser(holder: Syntax): (r: (Result<DefaultParser>, Syntax))
    ensures r.1 == Elements(holder).1
    ensures r.0.Ok? <==> Elements(holder).0.Ok?
    ensures r.0.Ok? ==> r.0.value.results == NoResults && Some(r.0.value.cronElements) == r.1.cronElements
    ensures r.0.Err? ==> r.0.error == Elements(holder).0.error
  {
    var (ce, holder') := Elements(holder);
    match ce
    case Err(e) => (Err(e), holder')
    case Ok(elements) => (Ok(DefaultParser(elements, NoResults)), holder')
  }

  /** A parser built from a fresh holder carries the line's tokens 0..5, month
      and day-of-week after name substitution, and no results yet. */
  lemma NewDefaultParserFields(line: string)
    requires NewDefaultParser(NewDefaultSyntax(line)).0.Ok?
    ensures var tokens := Split(line, Separator);
      var p := NewDefaultParser(NewDefaultSyntax(line)).0.value;
      && |tokens| == 6
      && p.cronElements.minute == tokens[0] && p.cronElements.hour == tokens[1]
      && p.cronElements.dayMonth == tokens[2]
      && p.cronElements.month == StringToNumber(tokens[3], MonthsMapper)
      && p.cronElements.dayWeek == StringToNumber(tokens[4], DaysMapper)
      && p.cronElements.command == tokens[5]
      && p.results == NoResults
  {
    ElementsFromLine(NewDefaultSyntax(line));
  }

  // ---------------------------------------------------------------------------
  // The field accessors
  // ---------------------------------------------------------------------------

  /** The field's text and allowed range as the accessor for `kind` sees them. */
  function FieldText(p: DefaultParser, kind: FieldKind): string {
    p.cronElements.Get(kind)
  }

  /** The accessor can run: the list is cached, or parsing the field ends and,
      when it succeeds, yields at least one value (an empty list would make
      the range check index past its end). */
  predicate AccessorDefined(p: DefaultParser, kind: FieldKind) {
    || |p.results.Get(kind)| > 0
    || (FieldHalts(FieldText(p, kind), AllowedValues(kind)) &&
        (Parse(FieldText(p, kind), AllowedValues(kind)).Ok? ==> |Parse(FieldText(p, kind), AllowedValues(kind)).value| > 0))
  }

  /** Minutes, Hours, DaysOfTheMonth, Months and DaysOfTheWeek, for the field
      `kind`: a cached list is returned as it is; otherwise the field is
      parsed, the sorted duplicate-free values are cached, and then checked
      against the range. On success the values are returned as parse produced
      them. */
  function Accessor(p: DefaultParser, kind: FieldKind): (r: (Result<seq<int>>, DefaultParser))
    requires AccessorDefined(p, kind)
    ensures |p.results.Get(kind)| > 0 ==> r == (Ok(p.results.Get(kind)), p)
    ensures |p.results.Get(kind)| == 0 ==>
      var m := Parse(FieldText(p, kind), AllowedValues(kind));
      var a := AllowedValues(kind);
      && (m.Err? ==> r == (Err(m.error), p))
      && (m.Ok? ==> r.1 == p.(results := p.results.Set(kind, SortedUniqueInts(m.value))))
      && (m.Ok? ==> (r.0.Ok? <==> forall x :: x in m.value ==> a.lo <= x <= a.hi))
      && (r.0.Ok? ==> r.0.value == m.value)
      && (m.Ok? && r.0.Err? ==> r.0.error == OutOfRangeError(a.lo, a.hi))
  {
    var cached := p.results.Get(kind);
    if |cached| > 0 then (Ok(cached), p)
    else
      var allowed := AllowedValues(kind);
      match Parse(FieldText(p, kind), allowed)
      case Err(e) => (Err(e), p)
      case Ok(m) =>
        var sorted := SortedUniqueInts(m);
        assert m[0] in sorted;
        InAllowedValuesAscending(sorted, allowed);
        var p' := p.(results := p.results.Set(kind, sorted));
        if !InAllowedValues(sorted, allowed) then (Err(OutOfRangeError(allowed.lo, allowed.hi)), p')
        else (Ok(m), p')
  }

  /** Command: returns the command field and caches it. */
  function Command(p: DefaultParser): (r: (string, DefaultParser))
    ensures p.results.command in {"", p.cronElements.command} ==>
      r.0 == p.cronElements.command && r.1.results.command == p.cronElements.command
    ensures r.1.cronElements == p.cronElements
    ensures forall kind :: r.1.results.Get(kind) == p.results.Get(kind)
  {
    if |p.results.command| > 0 then (p.results.command, p)
    else (p.cronElements.command, p.(results := p.results.(command := p.cronElements.command)))
  }

  /** The accessor caches exactly the sorted, duplicate-free values of the
      field, whether or not they pass the range check. */
  predicate CacheMatchesParse(p: DefaultParser, kind: FieldKind) {
    var field, a := FieldText(p, kind), AllowedValues(kind);
    || |p.results.Get(kind)| == 0
    || (FieldHalts(field, a) && Parse(field, a).Ok? && p.results.Get(kind) == SortedUniqueInts(Parse(field, a).value))
  }

  /** Calling an accessor keeps the cache in step with the parse of the field,
      and leaves the other fields' lists alone. */
  lemma AccessorCachesParse(p: DefaultParser, kind: FieldKind)
    requires AccessorDefined(p, kind) && CacheMatchesParse(p, kind)
    ensures CacheMatchesParse(Accessor(p, kind).1, kind)
    ensures Accessor(p, kind).1.cronElements == p.cronElements
    ensures forall other :: other != kind ==> Accessor(p, kind).1.results.Get(other) == p.results.Get(other)
  {
  }

  /** The second call returns the cached list: sorted and free of duplicates,
      and without an error even when the first call reported one because the
      values fell outside the range. */
  lemma AccessorSecondCall(p: DefaultParser, kind: FieldKind)
    requires |p.results.Get(kind)| == 0 && AccessorDefined(p, kind)
    requires Parse(FieldText(p, kind), AllowedValues(kind)).Ok?
    ensures var p1 := Accessor(p, kind).1;
      AccessorDefined(p1, kind) &&
      Accessor(p1, kind) == (Ok(SortedUniqueInts(Parse(FieldText(p, kind), AllowedValues(kind)).value)), p1)
  {
    var m := Parse(FieldText(p, kind), AllowedValues(kind)).value;
    assert m[0] in SortedUniqueInts(m);
  }

  /** A number outside the range: the first call reports the error, the second
      returns the number. Minute "60", hour "25", day of month "32" or "0",
      month "0" or "13" and day of week "7" all behave so. */
  lemma StaleOutOfRange(p: DefaultParser, kind: FieldKind, n: nat)
    requires |p.results.Get(kind)| == 0 && FieldText(p, kind) == FormatNat(n)
    requires !(AllowedValues(kind).lo <= n <= AllowedValues(kind).hi)
    ensures AccessorDefined(p, kind)
    ensures Accessor(p, kind).0 == Err(OutOfRangeError(AllowedValues(kind).lo, AllowedValues(kind).hi))
    ensures AccessorDefined(Accessor(p, kind).1, kind) && Accessor(Accessor(p, kind).1, kind).0 == Ok([n])
  {
    var a := AllowedValues(kind);
    NumberIsOkField(n, a);
    assert AccessorDefined(p, kind);
    var p1 := Accessor(p, kind).1;
    assert p1 == p.(results := p.results.Set(kind, SortedUniqueInts([n])));
    SortedUniqueIntsOfAscending([n]);
    AccessorSecondCall(p, kind);
  }

  /** Two numbers in descending order: the first call returns them as written,
      the second returns them sorted. */
  lemma FirstCallUnsorted(p: DefaultParser, kind: FieldKind, x: nat, y: nat)
    requires |p.results.Get(kind)| == 0 && FieldText(p, kind) == FormatNat(x) + "," + FormatNat(y)
    requires AllowedValues(kind).lo <= y < x <= AllowedValues(kind).hi
    ensures AccessorDefined(p, kind) && Accessor(p, kind).0 == Ok([x, y])
    ensures AccessorDefined(Accessor(p, kind).1, kind) && Accessor(Accessor(p, kind).1, kind).0 == Ok([y, x])
  {
    var a := AllowedValues(kind);
    TwoNumbersParse(x, y, a);
    SortTwo(x, y);
    AccessorSecondCall(p, kind);
  }

  lemma TwoNumbersParse(x: nat, y: nat, allowed: Allowed)
    ensures FieldHalts(FormatNat(x) + "," + FormatNat(y), allowed)
    ensures Parse(FormatNat(x) + "," + FormatNat(y), allowed) == Ok([x, y])
  {
    NumberIsOkField(x, allowed);
    NumberIsOkField(y, allowed);
    ParseJoined(FormatNat(x), FormatNat(y), allowed);
    assert [x] + [y] == [x, y];
  }

  lemma SortTwo(x: int, y: int)
    requires y < x
    ensures SortedUniqueInts([x, y]) == [y, x]
  {
    var s := SortedUniqueInts([x, y]);
    assert forall z :: z in s <==> z in [y, x];
    AscendingUnique(s, [y, x]);
  }

  /** A number alone is a field whose one element expands to that number. */
  lemma NumberIsOkField(n: nat, allowed: Allowed)
    ensures Split(FormatNat(n), ',') == [FormatNat(n)]
    ensures AllOk(Split(FormatNat(n), ','), allowed)
    ensures FieldHalts(FormatNat(n), allowed) && Parse(FormatNat(n), allowed) == Ok([n])
  {
    var v := FormatNat(n);
    NumeralLacks(v, ',');
    SplitAbsent(v, ',');
    ElementNumber(n, allowed);
    assert v[0] != '*';
    assert AllOk([v][1..], allowed);
    ParseOneElement(v, allowed);
  }

  // ---------------------------------------------------------------------------
  // The accessors as evidently intended
  // ---------------------------------------------------------------------------

  /** The values of a field as the accessors are meant to deliver them: sorted,
      without duplicates, non-empty and inside the range. A field whose step
      loop would never end, or that expands to nothing, is an error instead. */
  function Expand(field: string, allowed: Allowed): (r: Result<seq<int>>)
    ensures r.Ok? ==> |r.value| > 0 && StrictlyAscending(r.value)
    ensures r.Ok? ==> forall x :: x in r.value ==> allowed.lo <= x <= allowed.hi
    ensures r.Ok? <==>
      && FieldHalts(field, allowed)
      && Parse(field, allowed).Ok?
      && |Parse(field, allowed).value| > 0
      && forall x :: x in Parse(field, allowed).value ==> allowed.lo <= x <= allowed.hi
    ensures r.Ok? ==> forall x :: x in r.value <==> x in Parse(field, allowed).value
    ensures !FieldHalts(field, allowed) ==> r == Err(EndlessStepError(field))
  {
    if !FieldHalts(field, allowed) then Err(EndlessStepError(field))
    else
      match Parse(field, allowed)
      case Err(e) => Err(e)
      case Ok(m) =>
        if |m| == 0 then Err(EmptyFieldError(allowed.lo, allowed.hi))
        else
          var sorted := SortedUniqueInts(m);
          assert m[0] in sorted;
          InAllowedValuesAscending(sorted, allowed);
          if !InAllowedValues(sorted, allowed) then Err(OutOfRangeError(allowed.lo, allowed.hi))
          else Ok(sorted)
  }

  /** Expand yields the one ascending list with the field's values. */
  lemma ExpandCanonical(field: string, allowed: Allowed)
    requires Expand(field, allowed).Ok?
    ensures Expand(field, allowed).value == SortedUniqueInts(Parse(field, allowed).value)
  {
    var m := Parse(field, allowed).value;
    AscendingUnique(Expand(field, allowed).value, SortedUniqueInts(m));
  }

  /** The cached list of `kind` is what Expand yields for the field. */
  predicate CacheSound(p: DefaultParser, kind: FieldKind) {
    |p.results.Get(kind)| == 0 || Expand(FieldText(p, kind), AllowedValues(kind)) == Ok(p.results.Get(kind))
  }

  /** The accessor as evidently intended: it caches only a list that passed
      every check, and returns the sorted list both times. */
  function CheckedAccessor(p: DefaultParser, kind: FieldKind): (r: (Result<seq<int>>, DefaultParser))
    ensures CacheSound(p, kind) ==> r.0 == Expand(FieldText(p, kind), AllowedValues(kind))
    ensures CacheSound(p, kind) ==> CacheSound(r.1, kind)
    ensures r.1.cronElements == p.cronElements && r.1.results.command == p.results.command
    ensures forall other :: other != kind ==> r.1.results.Get(other) == p.results.Get(other)
  {
    var cached := p.results.Get(kind);
    if |cached| > 0 then (Ok(cached), p)
    else
      match Expand(FieldText(p, kind), AllowedValues(kind))
      case Err(e) => (Err(e), p)
      case Ok(vs) => (Ok(vs), p.(results := p.results.Set(kind, vs)))
  }

  /** With a sound cache, calling the corrected accessor again gives the same
      answer, and every answer it gives is ascending and inside the range. */
  lemma CheckedAccessorStable(p: DefaultParser, kind: FieldKind)
    requires CacheSound(p, kind)
    ensures var (r1, p1) := CheckedAccessor(p, kind);
      && CheckedAccessor(p1, kind).0 == r1
      && (r1.Ok? ==> StrictlyAscending(r1.value))
      && (r1.Ok? ==> forall x :: x in r1.value ==> AllowedValues(kind).lo <= x <= AllowedValues(kind).hi)
  {
  }

  /** The corrected accessor reports an out-of-range number on every call. */
  lemma CheckedOutOfRange(p: DefaultParser, kind: FieldKind, n: nat)
    requires |p.results.Get(kind)| == 0 && FieldText(p, kind) == FormatNat(n)
    requires !(AllowedValues(kind).lo <= n <= AllowedValues(kind).hi)
    ensures CheckedAccessor(p, kind).0 == Err(OutOfRangeError(AllowedValues(kind).lo, AllowedValues(kind).hi))
    ensures CheckedAccessor(CheckedAccessor(p, kind).1, kind).0 == CheckedAccessor(p, kind).0
  {
    NumberIsOkField(n, AllowedValues(kind));
    SortedUniqueIntsOfAscending([n]);
  }

  // ---------------------------------------------------------------------------
  // Fields with no values and steps that never end
  // ---------------------------------------------------------------------------

  /** A step element whose start lies above the maximum, minute "70/10" say,
      expands to nothing: the original accessor cannot run on it, and the
      corrected one reports an empty field. */
  lemma EmptyExpansion(p: DefaultParser, kind: FieldKind, n: nat, st: nat)
    requires |p.results.Get(kind)| == 0 && st > 0
    requires FieldText(p, kind) == FormatNat(n) + "/" + FormatNat(st)
    requires n > AllowedValues(kind).hi
    ensures FieldHalts(FieldText(p, kind), AllowedValues(kind))
    ensures Parse(FieldText(p, kind), AllowedValues(kind)) == Ok([])
    ensures !AccessorDefined(p, kind)
    ensures CheckedAccessor(p, kind).0 == Err(EmptyFieldError(AllowedValues(kind).lo, AllowedValues(kind).hi))
  {
    var a := AllowedValues(kind);
    var v := FormatNat(n) + "/" + FormatNat(st);
    ElementNumberStep(n, st, a);
    NumeralLacks(FormatNat(n), ',');
    NumeralLacks(FormatNat(st), ',');
    assert ',' !in v;
    ParseOneElement(v, a);
  }

  /** The pattern admits a zero step, "*" "/" "0", but the step loop on it
      never ends for a non-empty range: the original cannot run on it, and
      the corrected accessor reports it. */
  lemma ZeroStepNeverEnds(p: DefaultParser, kind: FieldKind)
    requires |p.results.Get(kind)| == 0
    requires FieldText(p, kind) == "*/" + FormatNat(0)
    ensures InGrammar(FieldText(p, kind)) && MatchesElement(FieldText(p, kind))
    ensures !FieldHalts(FieldText(p, kind), AllowedValues(kind))
    ensures !AccessorDefined(p, kind)
    ensures CheckedAccessor(p, kind).0 == Err(EndlessStepError(FieldText(p, kind)))
  {
    ZeroStepText(FieldText(p, kind), AllowedValues(kind));
  }

  /** The text "*" "/" "0" is in the grammar, yet its expansion over a
      non-empty range never ends. */
  lemma ZeroStepText(v: string, a: Allowed)
    requires v == "*/" + FormatNat(0) && a.lo <= a.hi
    ensures InGrammar(v) && MatchesElement(v)
    ensures !FieldHalts(v, a)
  {
    assert v == "*" + "/" + FormatNat(0);
    assert v[0] == '*' && v[1] == '/' && v[2..] == FormatNat(0);
    PatternCoversGrammar(v);
    SlashSplit("*", 0);
    AtoiFormatInt(0);
    StepBaseCases(a, 0, 0);
    assert ',' !in v;
    SplitAbsent(v, ',');
    assert !ElementHalts(v, a);
  }

  // ---------------------------------------------------------------------------
  // Worked cases
  // ---------------------------------------------------------------------------

  /** 3-3 is an interval; 3-1 is out of order; A-45 is not a number. */
  lemma IntervalCases()
    ensures ManageIntervals(["3", "3"]) == Ok(Bounds(3, 3))
    ensures ManageIntervals(["3", "1"]) == Err(RangeOrderError(3, 1))
    ensures ManageIntervals(["A", "45"]) == Err(SyntaxError("A-45"))
  {
    assert FormatInt(3) == "3" && FormatInt(1) == "1";
    AtoiFormatInt(3);
    AtoiFormatInt(1);
  }

  /** The minute element `*`/10 steps over the whole minute range. */
  lemma StarStepCase()
    ensures ElementHalts("*/10", Allowed(0, 59))
    ensures ElementValues("*/10", Allowed(0, 59)) == Ok(StepValues(0, 59, 10))
  {
    assert FormatNat(10) == "10";
    assert "*/" + "10" == "*/10";
    ElementStarStep(10, Allowed(0, 59));
  }

  /** The minute element 4/10 steps from 4 to the end of the minute range. */
  lemma NumberStepCase()
    ensures ElementHalts("4/10", Allowed(0, 59))
    ensures ElementValues("4/10", Allowed(0, 59)) == Ok(StepValues(4, 59, 10))
  {
    assert FormatNat(4) == "4" && FormatNat(10) == "10" && FormatInt(10) == "10";
    SplitAt("4/10", '/', 1);
    assert "4/10"[..1] == "4" && "4/10"[2..] == "10";
    StepBaseCases(Allowed(0, 59), 4, 0);
    StepElement("4/10", "4", 10, Allowed(0, 59));
  }

  /** The minute element 1-19/10 steps from 1 to 19. */
  lemma IntervalStepCase()
    ensures ElementHalts("1-19/10", Allowed(0, 59))
    ensures ElementValues("1-19/10", Allowed(0, 59)) == Ok(StepValues(1, 19, 10))
  {
    assert FormatNat(1) == "1" && FormatNat(19) == "19" && FormatNat(10) == "10";
    assert "1" + "-" + "19" + "/" + "10" == "1-19/10";
    ElementIntervalStep(1, 19, 10, Allowed(0, 59));
  }

  /** The three progressions above, written out. */
  lemma ProgressionsByTen()
    ensures StepValues(0, 59, 10) == [0, 10, 20, 30, 40, 50]
    ensures StepValues(4, 59, 10) == [4, 14, 24, 34, 44, 54]
    ensures StepValues(1, 19, 10) == [1, 11]
  {
    assert StepValues(60, 59, 10) == [];
    assert StepValues(64, 59, 10) == [];
    assert StepValues(21, 19, 10) == [];
  }

  /** A step that is not a number is a syntax error; the model records the
      step text in the error. */
  lemma NonNumericStepCase()
    ensures ElementHalts("1-19/*", Allowed(0, 59))
    ensures ElementValues("1-19/*", Allowed(0, 59)) == Err(SyntaxError("*"))
  {
    SplitAt("1-19/*", '/', 4);
    assert Atoi("*") == None;
  }

  /** 18,`*` is the whole minute range. */
  lemma StarAfterNumberCase()
    ensures FieldHalts("18,*", Allowed(0, 59))
    ensures Parse("18,*", Allowed(0, 59)) == Ok(RangeValues(0, 59))
  {
    assert FormatNat(18) == "18";
    ElementNumber(18, Allowed(0, 59));
    assert Join(["18", "*"], ',') == "18,*";
    SplitJoin(["18", "*"], ',');
    ParseStarAbsorbs("18,*", Allowed(0, 59), 1);
  }
}

=== FILE: text.dfy ===
/** The parts of Go's `strings` and `strconv` packages the engine relies on,
    over `string` = `seq<char>` and unbounded integers. */
module Text {
  import opened Outcomes

  // ---------------------------------------------------------------------------
  // Integers (strconv.Atoi)
  // ---------------------------------------------------------------------------

  predicate IsDigit(ch: char) {
    '0' <= ch <= '9'
  }

  /** A non-empty run of ASCII decimal digits. */
  predicate IsNumeral(s: string) {
    |s| > 0 && forall i :: 0 <= i < |s| ==> IsDigit(s[i])
  }

  /** The value of a (possibly empty) run of digits, most significant first. */
  function DigitsValue(s: string): nat
    requires forall i :: 0 <= i < |s| ==> IsDigit(s[i])
  {
    if |s| == 0 then 0
    else
      assert IsDigit(s[|s| - 1]);
      10 * DigitsValue(s[..|s| - 1]) + (s[|s| - 1] as int - '0' as int)
  }

  /** strconv.Atoi without the 64-bit range limit: an optional `+` or `-`
      followed by at least one digit; anything else is rejected. */
  function Atoi(s: string): (r: Option<int>)
    ensures IsNumeral(s) ==> r == Some(DigitsValue(s))
    ensures r.Some? <==> IsNumeral(s) || (|s| > 1 && (s[0] == '+' || s[0] == '-') && IsNumeral(s[1..]))
  {
    if |s| > 0 && (s[0] == '+' || s[0] == '-') then
      if IsNumeral(s[1..]) then
        var n: int := DigitsValue(s[1..]);
        Some(if s[0] == '-' then -n else n)
      else None
    else if IsNumeral(s) then Some(DigitsValue(s))
    else None
  }

  function DigitChar(d: nat): (ch: char)
    requires d < 10
    ensures IsDigit(ch) && ch as int - '0' as int == d
  {
    ('0' as int + d) as char
  }

  /** The decimal numeral of a natural number (strconv.Itoa on non-negatives). */
  function FormatNat(n: nat): (s: string)
    ensures IsNumeral(s)
  {
    if n < 10 then [DigitChar(n)] else FormatNat(n / 10) + [DigitChar(n % 10)]
  }

  /** The decimal text of any integer, with a leading `-` when negative. */
  function FormatInt(n: int): string {
    if n < 0 then "-" + FormatNat(-n) else FormatNat(n)
  }

  lemma {:induction false} DigitsValueFormatNat(n: nat)
    ensures DigitsValue(FormatNat(n)) == n
  {
    if n >= 10 {
      var s := FormatNat(n / 10) + [DigitChar(n % 10)];
      assert s[..|s| - 1] == FormatNat(n / 10);
      DigitsValueFormatNat(n / 10);
    }
  }

  /** Atoi reads back exactly the integer FormatInt wrote. */
  lemma AtoiFormatInt(n: int)
    ensures Atoi(FormatInt(n)) == Some(n)
  {
    if n < 0 {
      DigitsValueFormatNat(-n);
      assert FormatInt(n)[1..] == FormatNat(-n);
    } else {
      DigitsValueFormatNat(n);
    }
  }

  // ---------------------------------------------------------------------------
  // Splitting on a one-character separator (strings.Split)
  // ---------------------------------------------------------------------------

  /** Position of the first occurrence of `c` in `s`. */
  function IndexOf(s: string, c: char): (i: nat)
    requires c in s
    ensures i < |s| && s[i] == c && c !in s[..i]
  {
    if s[0] == c then 0
    else
      assert s == [s[0]] + s[1..];
      var j := IndexOf(s[1..], c);
      assert s[..j + 1] == [s[0]] + s[1..][..j];
      j + 1
  }

  /** The pieces joined back together, separated by `c`. */
  function Join(parts: seq<string>, c: char): string
    requires |parts| > 0
  {
    if |parts| == 1 then parts[0] else parts[0] + [c] + Join(parts[1..], c)
  }

  /** strings.Split with a one-character separator: the pieces between the
      occurrences of `c`, empty pieces included; there is always at least one. */
  function Split(s: string, c: char): (parts: seq<string>)
    ensures |parts| > 0
    ensures forall k :: 0 <= k < |parts| ==> c !in parts[k]
    decreases |s|
  {
    if c !in s then [s]
    else
      var i := IndexOf(s, c);
      [s[..i]] + Split(s[i + 1..], c)
  }

  /** The text up to the first separator is the first piece; the rest is
      split on. */
  lemma SplitFirst(s: string, c: char)
    requires c in s
    ensures var i := IndexOf(s, c);
      && s == s[..i] + [c] + s[i + 1..]
      && Split(s, c) == [s[..i]] + Split(s[i + 1..], c)
  {
  }

  /** Joining the pieces with the separator gives back the text. */
  lemma {:induction false} SplitJoinsBack(s: string, c: char)
    ensures Join(Split(s, c), c) == s
    decreases |s|
  {
    if c in s {
      var i := IndexOf(s, c);
      SplitFirst(s, c);
      SplitJoinsBack(s[i + 1..], c);
      assert Join(Split(s, c), c) == s[..i] + [c] + Join(Split(s[i + 1..], c), c);
    }
  }

  /** There is one piece more than there are separators. */
  lemma {:induction false} SplitCount(s: string, c: char)
    ensures |Split(s, c)| == multiset(s)[c] + 1
    decreases |s|
  {
    if c in s {
      var i := IndexOf(s, c);
      SplitFirst(s, c);
      SplitCount(s[i + 1..], c);
      assert multiset(s) == multiset(s[..i]) + multiset([c]) + multiset(s[i + 1..]);
    } else {
      assert multiset(s)[c] == 0;
    }
  }

  /** The first occurrence is the only one when neither side holds another. */
  lemma IndexOfUnique(s: string, c: char, i: nat)
    requires i < |s| && s[i] == c && c !in s[..i]
    ensures IndexOf(s, c) == i
  {
  }

  /** Splitting on the one occurrence of `c` yields the text before and after it. */
  lemma SplitAt(s: string, c: char, i: nat)
    requires i < |s| && s[i] == c && c !in s[..i] && c !in s[i + 1..]
    ensures Split(s, c) == [s[..i], s[i + 1..]]
  {
    IndexOfUnique(s, c, i);
  }

  /** Exactly two pieces means exactly one separator, at the first occurrence. */
  lemma SplitTwo(s: string, c: char)
    requires |Split(s, c)| == 2
    ensures c in s
    ensures Split(s, c) == [s[..IndexOf(s, c)], s[IndexOf(s, c) + 1..]]
    ensures c !in s[IndexOf(s, c) + 1..]
  {
    var i := IndexOf(s, c);
    assert Split(s, c)[1..] == Split(s[i + 1..], c);
  }

  /** A separator-free piece followed by the separator is split off first. */
  lemma SplitCons(a: string, rest: string, c: char)
    requires c !in a
    ensures Split(a + [c] + rest, c) == [a] + Split(rest, c)
  {
    var s := a + [c] + rest;
    var i := |a|;
    assert s[..i] == a && s[i] == c && s[i + 1..] == rest;
    IndexOfUnique(s, c, i);
  }

  /** Join then Split is the identity when no piece holds the separator. */
  lemma {:induction false} SplitJoin(parts: seq<string>, c: char)
    requires |parts| > 0
    requires forall k :: 0 <= k < |parts| ==> c !in parts[k]
    ensures Split(Join(parts, c), c) == parts
  {
    if |parts| > 1 {
      var rest := Join(parts[1..], c);
      assert Join(parts, c) == parts[0] + [c] + rest;
      assert c !in parts[0];
      SplitCons(parts[0], rest, c);
      SplitJoin(parts[1..], c);
    } else {
      assert c !in parts[0];
    }
  }

  /** Text without the separator is a single piece. */
  lemma SplitAbsent(s: string, c: char)
    requires c !in s
    ensures Split(s, c) == [s]
  {
  }

  /** A numeral holds no character other than digits. */
  lemma NumeralLacks(s: string, c: char)
    requires IsNumeral(s) && !IsDigit(c)
    ensures c !in s
  {
  }

  lemma {:induction false} JoinAppend(p: seq<string>, q: seq<string>, c: char)
    requires |p| > 0 && |q| > 0
    ensures Join(p + q, c) == Join(p, c) + [c] + Join(q, c)
  {
    if |p| > 1 {
      assert (p + q)[1..] == p[1..] + q;
      JoinAppend(p[1..], q, c);
    } else {
      assert (p + q)[1..] == q;
    }
  }

  /** Splitting text joined at a separator splits each side separately. */
  lemma SplitConcat(a: string, b: string, c: char)
    ensures Split(a + [c] + b, c) == Split(a, c) + Split(b, c)
  {
    var pa, pb := Split(a, c), Split(b, c);
    var parts := pa + pb;
    JoinAppend(pa, pb, c);
    SplitJoinsBack(a, c);
    SplitJoinsBack(b, c);
    assert Join(parts, c) == a + [c] + b;
    assert forall k :: 0 <= k < |parts| ==> c !in parts[k] by {
      forall k | 0 <= k < |parts| ensures c !in parts[k] {
        if k < |pa| { assert parts[k] == pa[k]; } else { assert parts[k] == pb[k - |pa|]; }
      }
    }
    SplitJoin(parts, c);
  }

  // ---------------------------------------------------------------------------
  // Case and substring replacement (strings.ToUpper, strings.ReplaceAll)
  // ---------------------------------------------------------------------------

  /** ASCII upper-casing of one character. */
  function UpperChar(ch: char): char {
    if 'a' <= ch <= 'z' then (ch as int - 32) as char else ch
  }

  /** strings.ToUpper restricted to ASCII letters. */
  function ToUpper(s: string): (u: string)
    ensures |u| == |s|
    ensures forall i :: 0 <= i < |s| ==> u[i] == UpperChar(s[i])
  {
    if |s| == 0 then [] else [UpperChar(s[0])] + ToUpper(s[1..])
  }

  /** `key` occurs in `s` starting at position `i`. */
  predicate OccursAt(s: string, key: string, i: nat) {
    i + |key| <= |s| && s[i..i + |key|] == key
  }

  predicate Occurs(s: string, key: string) {
    exists i: nat :: i + |key| <= |s| && OccursAt(s, key, i)
  }

  lemma OccursShift(s: string, key: string)
    requires |s| > 0 && !Occurs(s, key)
    ensures !Occurs(s[1..], key)
  {
    forall i: nat | i + |key| <= |s| - 1
      ensures !OccursAt(s[1..], key, i)
    {
      assert s[1..][i..i + |key|] == s[i + 1..i + 1 + |key|];
      assert !OccursAt(s, key, i + 1);
    }
  }

  /** What strings.ReplaceAll does with an empty key: `val` before every
      character and once more at the end. */
  function InsertEverywhere(s: string, val: string): (r: string)
    ensures |r| == |s| + (|s| + 1) * |val|
  {
    if |s| == 0 then val else val + [s[0]] + InsertEverywhere(s[1..], val)
  }

  /** strings.ReplaceAll: every non-overlapping occurrence of `key`, scanning
      left to right, is replaced by `val`. */
  function ReplaceAll(s: string, key: string, val: string): (r: string)
    ensures !Occurs(s, key) ==> r == s
    decreases |s|
  {
    if |key| == 0 then
      assert OccursAt(s, key, 0);
      InsertEverywhere(s, val)
    else if |s| < |key| then s
    else if s[..|key|] == key then
      assert OccursAt(s, key, 0);
      val + ReplaceAll(s[|key|..], key, val)
    else
      assert !Occurs(s, key) ==> !OccursAt(s, key, 0) && !Occurs(s[1..], key) by {
        if !Occurs(s, key) { OccursShift(s, key); }
      }
      assert s == [s[0]] + s[1..];
      [s[0]] + ReplaceAll(s[1..], key, val)
  }

  /** A text as long as the key but different from it is left alone. */
  lemma ReplaceAllOther(s: string, key: string, val: string)
    requires 0 < |key| == |s| && s != key
    ensures ReplaceAll(s, key, val) == s
  {
    assert s[..|key|] == s;
    assert s == [s[0]] + s[1..];
  }

  /** The key on its own becomes the value. */
  lemma ReplaceAllWhole(key: string, val: string)
    requires |key| > 0
    ensures ReplaceAll(key, key, val) == val
  {
    assert key[..|key|] == key;
    assert val + [] == val;
  }

  /** One step of the scan: an occurrence at the front is replaced. */
  lemma AtStart(s: string, key: string, val: string)
    requires 0 < |key| <= |s| && s[..|key|] == key
    ensures ReplaceAll(s, key, val) == val + ReplaceAll(s[|key|..], key, val)
  {
  }

  /** One step of the scan: a front character that starts no occurrence is kept. */
  lemma Skip(s: string, key: string, val: string)
    requires 0 < |key| <= |s| && s[..|key|] != key
    ensures ReplaceAll(s, key, val) == [s[0]] + ReplaceAll(s[1..], key, val)
  {
  }

  /** The same step for a prefix of such a text. */
  lemma SkipFirst(a: string, s: string, key: string, val: string)
    requires |key| > 0 && |a| > 0 && a <= s && |key| <= |s| && s[..|key|] != key
    ensures ReplaceAll(a, key, val) == [a[0]] + ReplaceAll(a[1..], key, val)
  {
    if |a| >= |key| {
      assert a[..|key|] == s[..|key|];
      Skip(a, key, val);
    } else {
      assert a == [a[0]] + a[1..];
    }
  }

  /** A prefix equal to the key holds no character the key lacks. */
  lemma PrefixAvoids(s: string, key: string, c: char)
    requires |key| <= |s| && s[..|key|] == key && c !in key
    ensures forall i :: 0 <= i < |key| ==> s[i] != c
  {
    forall i | 0 <= i < |key| ensures s[i] != c {
      assert s[i] == key[i];
    }
  }

  lemma Reassociate(z: string, x: string, y: string, c: char)
    ensures z + (x + [c] + y) == (z + x) + [c] + y
  {
  }

  /** A character the key lacks splits the replacement: the text on each
      side of it is rewritten on its own. */
  lemma {:induction false} ReplaceAllAround(a: string, b: string, c: char, key: string, val: string)
    requires |key| > 0 && c !in key
    ensures ReplaceAll(a + [c] + b, key, val) == ReplaceAll(a, key, val) + [c] + ReplaceAll(b, key, val)
    decreases |a|, 2
  {
    var s := a + [c] + b;
    if |s| < |key| {
    } else if s[..|key|] == key {
      AroundMatch(a, b, c, key, val);
    } else {
      AroundSkip(a, b, c, key, val);
    }
  }

  /** ReplaceAllAround when the key occurs at the front: it lies inside `a`. */
  lemma {:induction false} AroundMatch(a: string, b: string, c: char, key: string, val: string)
    requires |key| > 0 && c !in key
    requires |key| <= |a + [c] + b| && (a + [c] + b)[..|key|] == key
    ensures ReplaceAll(a + [c] + b, key, val) == ReplaceAll(a, key, val) + [c] + ReplaceAll(b, key, val)
    decreases |a|, 0
  {
    var s := a + [c] + b;
    PrefixAvoids(s, key, c);
    assert s[|a|] == c;
    assert a[..|key|] == key;
    assert s[|key|..] == a[|key|..] + [c] + b;
    ReplaceAllAround(a[|key|..], b, c, key, val);
    AtStart(s, key, val);
    AtStart(a, key, val);
  }

  /** ReplaceAllAround when the front character is kept. */
  lemma {:induction false} AroundSkip(a: string, b: string, c: char, key: string, val: string)
    requires |key| > 0 && c !in key
    requires |key| <= |a + [c] + b| && (a + [c] + b)[..|key|] != key
    ensures ReplaceAll(a + [c] + b, key, val) == ReplaceAll(a, key, val) + [c] + ReplaceAll(b, key, val)
    decreases |a|, 1
  {
    var s := a + [c] + b;
    Skip(s, key, val);
    if |a| == 0 {
      assert s[1..] == b;
    } else {
      assert s[1..] == a[1..] + [c] + b;
      SkipFirst(a, s, key, val);
      SkipCons(a, b, c, key, val);
    }
  }

  lemma {:induction false} SkipCons(a: string, b: string, c: char, key: string, val: string)
    requires |key| > 0 && c !in key && |a| > 0
    requires ReplaceAll(a + [c] + b, key, val) == [a[0]] + ReplaceAll(a[1..] + [c] + b, key, val)
    requires ReplaceAll(a, key, val) == [a[0]] + ReplaceAll(a[1..], key, val)
    ensures ReplaceAll(a + [c] + b, key, val) == ReplaceAll(a, key, val) + [c] + ReplaceAll(b, key, val)
    decreases |a|, 0
  {
    ReplaceAllAround(a[1..], b, c, key, val);
    Reassociate([a[0]], ReplaceAll(a[1..], key, val), ReplaceAll(b, key, val), c);
  }

  /** Upper-casing works piece by piece. */
  lemma {:induction false} ToUpperConcat(x: string, y: string)
    ensures ToUpper(x + y) == ToUpper(x) + ToUpper(y)
  {
    if |x| == 0 {
      assert x + y == y;
    } else {
      assert (x + y)[0] == x[0] && (x + y)[1..] == x[1..] + y;
      ToUpperConcat(x[1..], y);
    }
  }

  lemma ToUpperAround(a: string, b: string, c: char)
    ensures ToUpper(a + [c] + b) == ToUpper(a) + [UpperChar(c)] + ToUpper(b)
  {
    ToUpperConcat(a + [c], b);
    ToUpperConcat(a, [c]);
  }
}

=== FILE: utils.dfy ===
/** List and string helpers of the engine: integer ranges, symbolic-name
    substitution, duplicate removal and sorting. */
module Utils {
  import opened Text

  /** Every integer from `lo` to `hi` inclusive, ascending; empty when lo > hi. */
  function RangeValues(lo: int, hi: int): (r: seq<int>)
    ensures |r| == if lo <= hi then hi - lo + 1 else 0
    ensures forall i :: 0 <= i < |r| ==> r[i] == lo + i
    decreases hi - lo
  {
    if lo > hi then [] else [lo] + RangeValues(lo + 1, hi)
  }

  /** The values of a range are exactly the integers between its bounds. */
  lemma RangeValuesMembers(lo: int, hi: int)
    ensures forall x :: x in RangeValues(lo, hi) <==> lo <= x <= hi
  {
    var r := RangeValues(lo, hi);
    forall x | lo <= x <= hi
      ensures x in r
    {
      assert r[x - lo] == x;
    }
  }

  // ---------------------------------------------------------------------------
  // Symbolic names
  // ---------------------------------------------------------------------------

  /** A name-to-number table, applied in the order listed. */
  type Mapper = seq<(string, string)>

  /** No key of the table occurs in `s`. */
  predicate NoKeyOccurs(s: string, m: Mapper) {
    forall k :: 0 <= k < |m| ==> !Occurs(s, m[k].0)
  }

  /** Replaces every occurrence of each key, one key after the other. */
  function ReplaceEach(s: string, m: Mapper): (r: string)
    ensures NoKeyOccurs(s, m) ==> r == s
    decreases |m|
  {
    if |m| == 0 then s else ReplaceEach(ReplaceAll(s, m[0].0, m[0].1), m[1..])
  }

  /** Upper-cases the input, then replaces every occurrence of every key of
      the table with its value. */
  function StringToNumber(input: string, m: Mapper): (r: string)
    ensures NoKeyOccurs(ToUpper(input), m) ==> r == ToUpper(input)
  {
    ReplaceEach(ToUpper(input), m)
  }

  predicate IsLetter(ch: char) {
    'A' <= ch <= 'Z' || 'a' <= ch <= 'z'
  }

  /** Every key of the table is a non-empty name starting with a letter. */
  predicate KeysAreNames(m: Mapper) {
    forall k :: 0 <= k < |m| ==> |m[k].0| > 0 && IsLetter(m[k].0[0])
  }

  /** Text without letters is left as it is: upper-casing does not touch it
      and no name can occur in it. */
  lemma StringToNumberWithoutLetters(s: string, m: Mapper)
    requires KeysAreNames(m)
    requires forall i :: 0 <= i < |s| ==> !IsLetter(s[i])
    ensures StringToNumber(s, m) == s
  {
    var u := ToUpper(s);
    assert u == s;
    forall k | 0 <= k < |m|
      ensures !Occurs(u, m[k].0)
    {
      forall i: nat | i + |m[k].0| <= |u|
        ensures !OccursAt(u, m[k].0, i)
      {
        assert u[i..i + |m[k].0|][0] == u[i];
      }
    }
  }

  /** No key holds `c`. */
  predicate KeysAvoid(m: Mapper, c: char) {
    forall k :: 0 <= k < |m| ==> |m[k].0| > 0 && c !in m[k].0
  }

  /** A character no key holds splits the substitution: each side is rewritten on its own. */
  lemma {:induction false} ReplaceEachAround(a: string, b: string, c: char, m: Mapper)
    requires KeysAvoid(m, c)
    ensures ReplaceEach(a + [c] + b, m) == ReplaceEach(a, m) + [c] + ReplaceEach(b, m)
    decreases |m|
  {
    if |m| > 0 {
      ReplaceAllAround(a, b, c, m[0].0, m[0].1);
      ReplaceEachAround(ReplaceAll(a, m[0].0, m[0].1), ReplaceAll(b, m[0].0, m[0].1), c, m[1..]);
    }
  }

  /** Every key has length `n` and every value is shorter. */
  predicate FixedWidthNames(m: Mapper, n: nat) {
    forall k :: 0 <= k < |m| ==> |m[k].0| == n && |m[k].1| < n
  }

  /** No key before position `j` equals the key at `j`. */
  predicate FirstKey(m: Mapper, j: nat) {
    j < |m| && forall k :: 0 <= k < j ==> m[k].0 != m[j].0
  }

  /** Text shorter than every key is left as it is. */
  lemma {:induction false} ReplaceEachShort(s: string, m: Mapper, n: nat)
    requires FixedWidthNames(m, n) && |s| < n
    ensures ReplaceEach(s, m) == s
    decreases |m|
  {
    if |m| > 0 {
      ReplaceEachShort(s, m[1..], n);
    }
  }

  /** A name alone is replaced by its value, provided no earlier entry has the same key. */
  lemma {:induction false} ReplaceEachName(m: Mapper, n: nat, j: nat)
    requires n > 0 && FixedWidthNames(m, n) && FirstKey(m, j)
    ensures ReplaceEach(m[j].0, m) == m[j].1
    decreases |m|
  {
    if j == 0 {
      ReplaceAllWhole(m[0].0, m[0].1);
      ReplaceEachShort(m[0].1, m[1..], n);
    } else {
      ReplaceAllOther(m[j].0, m[0].0, m[0].1);
      assert m[1..][j - 1] == m[j];
      ReplaceEachName(m[1..], n, j - 1);
    }
  }

  /** Two names joined by a dash, in any case, become their two values joined by a dash. */
  lemma StringToNumberRange(a: string, b: string, m: Mapper, n: nat, i: nat, j: nat)
    requires n > 0 && FixedWidthNames(m, n) && KeysAvoid(m, '-')
    requires FirstKey(m, i) && FirstKey(m, j) && ToUpper(a) == m[i].0 && ToUpper(b) == m[j].0
    ensures StringToNumber(a + "-" + b, m) == m[i].1 + "-" + m[j].1
  {
    ToUpperAround(a, b, '-');
    ReplaceEachAround(m[i].0, m[j].0, '-', m);
    ReplaceEachName(m, n, i);
    ReplaceEachName(m, n, j);
  }

  // ---------------------------------------------------------------------------
  // Duplicates and order
  // ---------------------------------------------------------------------------

  predicate NoDups(s: seq<int>) {
    forall i, j :: 0 <= i < j < |s| ==> s[i] != s[j]
  }

  predicate StrictlyAscending(s: seq<int>) {
    forall i, j :: 0 <= i < j < |s| ==> s[i] < s[j]
  }

  predicate Ascending(s: seq<int>) {
    forall i, j :: 0 <= i <= j < |s| ==> s[i] <= s[j]
  }

  /** The same elements, each once. The order Go produces follows its map
      iteration and is unspecified; this model keeps first occurrences. */
  function RemoveDups(s: seq<int>): (r: seq<int>)
    ensures NoDups(r)
    ensures forall x :: x in r <==> x in s
    ensures |r| <= |s|
  {
    if |s| == 0 then []
    else
      var rest := RemoveDups(s[..|s| - 1]);
      assert s == s[..|s| - 1] + [s[|s| - 1]];
      if s[|s| - 1] in rest then rest else rest + [s[|s| - 1]]
  }

  /** Places a new value into a strictly ascending list. */
  function Insert(x: int, s: seq<int>): (r: seq<int>)
    requires StrictlyAscending(s) && x !in s
    ensures StrictlyAscending(r)
    ensures forall y :: y in r <==> y == x || y in s
    ensures |r| == |s| + 1
  {
    if |s| == 0 then [x]
    else if x < s[0] then [x] + s
    else
      var rest := Insert(x, s[1..]);
      assert forall j :: 0 <= j < |rest| ==> rest[j] in rest;
      assert forall y :: y in s[1..] ==> s[0] < y;
      [s[0]] + rest
  }

  /** sort.Ints on a duplicate-free list. */
  function SortUnique(s: seq<int>): (r: seq<int>)
    requires NoDups(s)
    ensures StrictlyAscending(r)
    ensures forall x :: x in r <==> x in s
    ensures |r| == |s|
  {
    if |s| == 0 then []
    else
      var init := s[..|s| - 1];
      assert s == init + [s[|s| - 1]];
      Insert(s[|s| - 1], SortUnique(init))
  }

  /** The distinct elements of the input in ascending order. */
  function SortedUniqueInts(s: seq<int>): (r: seq<int>)
    ensures StrictlyAscending(r)
    ensures forall x :: x in r <==> x in s
  {
    SortUnique(RemoveDups(s))
  }

  /** A strictly ascending list is determined by its elements. */
  lemma {:induction false} AscendingUnique(a: seq<int>, b: seq<int>)
    requires StrictlyAscending(a) && StrictlyAscending(b)
    requires forall x :: x in a <==> x in b
    ensures a == b
  {
    if |a| > 0 { assert a[0] in a; }
    if |b| > 0 { assert b[0] in b; }
    if |a| > 0 {
      assert a[0] in a;
      assert |b| > 0;
      assert b[0] in b;
      assert a[0] == b[0] by {
        var i :| 0 <= i < |a| && a[i] == b[0];
        var j :| 0 <= j < |b| && b[j] == a[0];
        assert a[0] <= a[i] && b[0] <= b[j];
      }
      forall x
        ensures x in a[1..] <==> x in b[1..]
      {
        assert x in a[1..] <==> x in a && x != a[0];
        assert x in b[1..] <==> x in b && x != b[0];
      }
      AscendingUnique(a[1..], b[1..]);
      assert a == [a[0]] + a[1..] && b == [b[0]] + b[1..];
    }
  }

  /** SortedUniqueInts leaves a strictly ascending list unchanged. */
  lemma SortedUniqueIntsOfAscending(s: seq<int>)
    requires StrictlyAscending(s)
    ensures SortedUniqueInts(s) == s
  {
    AscendingUnique(SortedUniqueInts(s), s);
  }

  /** SortedUniqueInts is idempotent. */
  lemma SortedUniqueIntsIdempotent(s: seq<int>)
    ensures SortedUniqueInts(SortedUniqueInts(s)) == SortedUniqueInts(s)
  {
    SortedUniqueIntsOfAscending(SortedUniqueInts(s));
  }

  /** Two lists give the same SortedUniqueInts exactly when they hold the same elements. */
  lemma SortedUniqueIntsCanonical(a: seq<int>, b: seq<int>)
    ensures SortedUniqueInts(a) == SortedUniqueInts(b) <==> (forall x :: x in a <==> x in b)
  {
    if forall x :: x in a <==> x in b {
      AscendingUnique(SortedUniqueInts(a), SortedUniqueInts(b));
    }
  }

  /** [0, 1, 2, 3, 17, 8, 21, 1] sorts to [0, 1, 2, 3, 8, 17, 21]. */
  lemma SortedUniqueIntsExample()
    ensures SortedUniqueInts([0, 1, 2, 3, 17, 8, 21, 1]) == [0, 1, 2, 3, 8, 17, 21]
  {
    var s, t := [0, 1, 2, 3, 17, 8, 21, 1], [0, 1, 2, 3, 8, 17, 21];
    assert StrictlyAscending(t);
    assert forall x :: x in s <==> x in t;
    AscendingUnique(SortedUniqueInts(s), t);
  }
}

=== FILE: validators.dfy ===
/** The field-count validator: splits a cron line into its six fields without
    looking inside them. */
module Validators {
  import opened Outcomes
  import opened Text
  import opened Fields

  /** The validator's state: the line and, once tokenized, its fields. */
  datatype Validator = Validator(input: string, cronElements: Option<CronElements>)

  /** NewValidator: a fresh validator keeps the line and holds no fields yet. */
  function NewValidator(input: string): (v: Validator)
    ensures v.input == input && v.cronElements.None?
  {
    Validator(input, None)
  }

  /** ValidateInput: the line must split on single spaces into six tokens. */
  function ValidateInput(v: Validator): (r: Outcome)
    ensures r.Pass? <==> |Split(v.input, Separator)| == FieldsExpected
    ensures r.Fail? ==> r.error == FieldCountError(|Split(v.input, Separator)|, FieldsExpected)
  {
    CheckFieldCount(v.input)
  }

  /** tokenize: on a six-token line, stores tokens 0..5 as the fields, with no
      name substitution and no syntax check; otherwise reports the count error
      and stores nothing. */
  function Tokenize(v: Validator): (r: (Outcome, Validator))
    ensures r.0 == ValidateInput(v)
    ensures r.0.Pass? ==> r.1 == v.(cronElements := Some(FromTokens(Split(v.input, Separator))))
    ensures r.0.Fail? ==> r.1 == v
  {
    match ValidateInput(v)
    case Fail(e) => (Fail(e), v)
    case Pass => (Pass, v.(cronElements := Some(FromTokens(Split(v.input, Separator)))))
  }

  /** CronExpression: the stored fields if there are any, otherwise the result
      of tokenizing the line. */
  function CronExpression(v: Validator): (r: (Result<CronElements>, Validator))
    ensures v.cronElements.Some? ==> r == (Ok(v.cronElements.value), v)
    ensures v.cronElements.None? ==> (r.0.Ok? <==> |Split(v.input, Separator)| == FieldsExpected)
    ensures v.cronElements.None? && r.0.Ok? ==> r.0.value.Tokens() == Split(v.input, Separator)
    ensures r.0.Ok? ==> r.1 == v.(cronElements := Some(r.0.value))
    ensures r.0.Err? ==> r.1 == v && r.0.error.FieldCountError?
  {
    if v.cronElements.Some? then (Ok(v.cronElements.value), v)
    else
      match Tokenize(v)
      case (Fail(e), v') => (Err(e), v')
      case (Pass, v') => (Ok(v'.cronElements.value), v')
  }

  /** CronExpression is memoized: asking again returns the same fields and
      leaves the state alone. */
  lemma CronExpressionIdempotent(v: Validator)
    ensures var (r1, v1) := CronExpression(v);
      CronExpression(v1) == (r1, v1)
  {
  }

  /** The fields a fresh validator yields, joined with single spaces, give back
      the line. */
  lemma CronExpressionJoinsBack(line: string)
    requires CronExpression(NewValidator(line)).0.Ok?
    ensures Join(CronExpression(NewValidator(line)).0.value.Tokens(), Separator) == line
  {
    SplitJoinsBack(line, Separator);
  }

  /** Six fields without spaces, joined with single spaces, are read back as
      they were. */
  lemma CronExpressionOfJoined(ce: CronElements)
    requires forall k :: 0 <= k < |ce.Tokens()| ==> Separator !in ce.Tokens()[k]
    ensures CronExpression(NewValidator(Join(ce.Tokens(), Separator))).0 == Ok(ce)
  {
    SplitJoin(ce.Tokens(), Separator);
  }
}
